=== FILE: README.md ===
# mysql2mongodb task layer in Dafny

This project models the task layer of the `ckanext-mysql2mongodb` CKAN
extension. The layer migrates a MySQL dump attached to a CKAN resource into
MongoDB, then checks the migrated data against its source. The model covers
three tasks:

- `prepare` accepts only files whose extension is the SQL extension, and
  downloads an accepted file exactly once.
- `convert_data` streams every table of the imported schema chunk by chunk,
  converts each chunk with that table's column datatypes, and stores it in
  the table's collection.
- `validate_data` runs a per-table state machine. For each table it checks
  the row counts. Then, for every chunk, it samples the rows (all of them
  when the chunk is short, a coreset sample otherwise), looks up the
  matching documents, and appends the mismatched row indexes to one cache
  list per run. A table whose list is not empty is *flagged*: it gets one
  validator-log entry, the run's cache namespace is cleared, and the loop
  goes on with the next table. Any other exception ends the task unchanged.

The model is functional:

- The MySQL and MongoDB handlers, the file-system download, the sampler, the
  transformations and the validator become fields of one `Env` value
  (`handlers.dfy`). They are total functions. The handler calls, the
  document conversion and the validator return either a value or the
  exception they raise. The coreset transformation and the sampler return
  a value only.
- Exceptions are the `Error` datatype (`errors.dfy`). Python's `except`
  by type becomes the `IsFlowSignal` test.
- The mismatch cache is a map from keys to lists with Redis list semantics
  (`mismatch_cache.dfy`). The validator log is an append-only sequence.
  Neither is an `Env` field: cache and log operations are total and never
  raise.
- A chunk generator is a `Stream`: the chunks it yields, then how it ends.
- `Expected` (`validate_props.dfy`) judges every table on its own against
  an empty cache, with no cache threaded through. It is the reference
  definition the table loop is proved against. `ExpectedStores`
  (`convert_task.dfy`) plays the same role for conversion.

Modules:

| file | module |
|---|---|
| `errors.dfy` | `Errors`: exceptions, `Outcome`, `Result`, `Option` |
| `file_names.dfy` | `FileNames`: `str.split`, the database name, the extension, the cache prefix |
| `mismatch_cache.dfy` | `MismatchCache`: `append_list`, `get_list_length`, `clear_cache` |
| `handlers.dfy` | `Handlers`: the collaborators and configuration constants |
| `prepare_task.dfy` | `PrepareTask`: `prepare` |
| `sampling.dfy` | `Sampling`: `chosen_loc` and `iloc` |
| `convert_task.dfy` | `ConvertTask`: `convert_data` and its reference trace |
| `validate_task.dfy` | `ValidateTask`: `validate_data` |
| `validate_props.dfy` | `ValidateProps`: properties of `validate_data` |

## Model

| member | source | states |
|---|---|---|
| FileNames.Split | ckanext/mysql2mongodb/dataconv/task/mysql_mongo.py:31 | `str.split` with a one-character separator always yields at least one part, and no part holds the separator. |
| FileNames.JoinSplit | ckanext/mysql2mongodb/dataconv/task/mysql_mongo.py:31 | Splitting at a separator loses nothing: joining the parts with the separator gives back the original text. |
| FileNames.SplitJoin | ckanext/mysql2mongodb/dataconv/task/mysql_mongo.py:31 | Splitting the join of separator-free parts gives back exactly those parts, so the split is the unique separator-free decomposition. |
| FileNames.DbName | ckanext/mysql2mongodb/dataconv/task/mysql_mongo.py:48 | The database name is a prefix of the file name that holds no '.', and it is either the whole name or is followed by a '.', i.e. the text before the first '.'. |
| FileNames.Extension | ckanext/mysql2mongodb/dataconv/task/mysql_mongo.py:31 | `split('.')[-1]` is a '.'-free suffix of the name, preceded by a '.' unless it is the whole name. |
| FileNames.CachePrefix | ckanext/mysql2mongodb/dataconv/task/mysql_mongo.py:72 | The prefix starts with the resource id followed by '_', and is exactly two characters longer than the two ids together. |
| FileNames.CachePrefixDecodes | ckanext/mysql2mongodb/dataconv/task/mysql_mongo.py:72 | With '_'-free identifiers, the cache prefix splits at '_' into the resource id, the package id and an empty tail. |
| FileNames.CachePrefixesSeparate | ckanext/mysql2mongodb/dataconv/task/mysql_mongo.py:96 | With '_'-free identifiers, one run's prefix can start another run's prefix only when both runs have the same resource and package ids, so a prefix-wide clear never reaches another run's keys. |
| FileNames.CachePrefixesCanNest | ckanext/mysql2mongodb/dataconv/task/mysql_mongo.py:96 | Without that restriction, one run's prefix can start a different run's prefix, and two different id pairs can share one prefix. |
| MismatchCache.ListLength | ckanext/mysql2mongodb/dataconv/task/mysql_mongo.py:115-116 | A list reads as length 0 exactly when its key is missing or holds an empty list. |
| MismatchCache.Append | ckanext/mysql2mongodb/dataconv/task/mysql_mongo.py:114 | Appending extends the list under the key by exactly the items and changes no other key. Appending nothing leaves the cache as it was. |
| MismatchCache.AppendAppend | ckanext/mysql2mongodb/dataconv/task/mysql_mongo.py:103-114 | Two appends to one key equal a single append of both item lists, in order. |
| MismatchCache.ClearPrefix | ckanext/mysql2mongodb/dataconv/task/mysql_mongo.py:128 | After a clear, no key starts with the prefix, and every other key keeps its presence and its list. |
| MismatchCache.ClearPrefixIdempotent | ckanext/mysql2mongodb/dataconv/task/mysql_mongo.py:128-130 | Clearing twice is clearing once. A cache with nothing under the prefix is left unchanged, so the final clear after a per-table clear changes nothing. |
| MismatchCache.ClearedKeysReadEmpty | ckanext/mysql2mongodb/dataconv/task/mysql_mongo.py:115-128 | After a clear, every key under the prefix reads as a list of length 0. |
| PrepareTask.Prepare | ckanext/mysql2mongodb/dataconv/task/mysql_mongo.py:28-40 | The download happens exactly when the extension matches. Then it happens once, with the call's arguments, and its outcome is the task's. Otherwise `InvalidFileExtension` is raised before any download. |
| PrepareTask.ExtensionUnique | ckanext/mysql2mongodb/dataconv/task/mysql_mongo.py:31 | Any '.'-free suffix that is the whole name or follows a '.' is the extension: the check's characterisation has exactly one solution. |
| PrepareTask.AcceptedFileNames | ckanext/mysql2mongodb/dataconv/task/mysql_mongo.py:31-35 | For a '.'-free SQL extension, a name is accepted if and only if it is the extension itself or ends in '.' followed by the extension. |
| PrepareTask.DottedExtensionRejectsAll | ckanext/mysql2mongodb/dataconv/task/mysql_mongo.py:31-33 | If the configured extension contains a '.', every file is rejected and nothing is downloaded. |
| Sampling.Transformed | ckanext/mysql2mongodb/dataconv/task/mysql_mongo.py:105 | The sampler's frame has the chunk's length, and each row is the chunk's row passed through the coreset transformation. |
| Sampling.ChosenPositions | ckanext/mysql2mongodb/dataconv/task/mysql_mongo.py:106-107 | A chunk shorter than the chunk size gets exactly the positions 0..n-1. A larger one gets the sampler's positions for the target size of n. |
| Sampling.SubFrame | ckanext/mysql2mongodb/dataconv/task/mysql_mongo.py:108 | The position lookup succeeds if and only if every position is inside the chunk. It then yields, in order, the row at each position. Otherwise it raises. |
| Sampling.Sample | ckanext/mysql2mongodb/dataconv/task/mysql_mongo.py:106-108 | Sampling a chunk shorter than the chunk size never raises. Every sampled row is a row of the chunk. The only exception the sampling step raises is the out-of-range position error. |
| Sampling.SmallChunkSampledInFull | ckanext/mysql2mongodb/dataconv/task/mysql_mongo.py:106-108 | A chunk shorter than the chunk size is compared in full: its sample is the chunk itself. |
| Sampling.LargeChunkDrawsFromSampler | ckanext/mysql2mongodb/dataconv/task/mysql_mongo.py:106-108 | A chunk of at least the chunk size is compared only at the positions the sampler returned, one row per position. |
| ConvertTask.ConvertChunks | ckanext/mysql2mongodb/dataconv/task/mysql_mongo.py:78-80 | Each store call holds the corresponding chunk converted with the table's datatypes, in chunk order. Every chunk before the last store succeeded. The loop passes if and only if every chunk converts and stores, and then there is one store per chunk. |
| ConvertTask.ConvertTable | ckanext/mysql2mongodb/dataconv/task/mysql_mongo.py:77-80 | Every store call of a table goes to that table's collection in the run's database. |
| ConvertTask.ConvertTables | ckanext/mysql2mongodb/dataconv/task/mysql_mongo.py:76-80 | Every store call of the table loop goes to the run's database. |
| ConvertTask.ConvertData | ckanext/mysql2mongodb/dataconv/task/mysql_mongo.py:67-85 | Every store call of `convert_data` goes to the database named by the text before the first '.' of the file name. A failing datatype-map lookup, or a failing table-name lookup after it, escapes unchanged as the task's outcome, and nothing is stored. |
| ConvertTask.ChunkStores | ckanext/mysql2mongodb/dataconv/task/mysql_mongo.py:78-80 | The reference trace of converting chunks: one store per chunk, in order, each holding that chunk converted with the given datatypes. |
| ConvertTask.ConvertChunksStopsAtFirstFailure | ckanext/mysql2mongodb/dataconv/task/mysql_mongo.py:78-80 | At the first failing chunk, the chunks before it are stored in full. If its conversion raises, that exception escapes and nothing more is stored. Otherwise its store is attempted and the store's exception escapes. No later chunk is touched. |
| ConvertTask.MissingDatatypesStoreNothing | ckanext/mysql2mongodb/dataconv/task/mysql_mongo.py:77 | A table missing from the datatype map raises the key error, and nothing is fetched or stored. |
| ConvertTask.TableFailureEscapes | ckanext/mysql2mongodb/dataconv/task/mysql_mongo.py:77-80 | A table ends exactly as its chunk loop does at the first failing chunk. When every chunk succeeds, the stream's own ending, an exception included, is the table's outcome, after every chunk was stored. |
| ConvertTask.TableSucceedsStores | ckanext/mysql2mongodb/dataconv/task/mysql_mongo.py:77-80 | A table whose chunks all convert and store, and whose stream ends normally, passes and stores exactly one converted chunk per streamed chunk. |
| ConvertTask.ConvertTablesMatchesReference | ckanext/mysql2mongodb/dataconv/task/mysql_mongo.py:75-80 | When every table succeeds, the run passes, and its store calls are exactly the reference trace: table after table, chunk after chunk, each converted with its own table's datatypes. |
| ConvertTask.ConvertTablesAppend | ckanext/mysql2mongodb/dataconv/task/mysql_mongo.py:76-80 | Tables that all succeed, followed by any others, store their reference trace and then whatever the remaining run stores. The run's outcome is that of the remaining run. |
| ConvertTask.FirstFailureStopsRun | ckanext/mysql2mongodb/dataconv/task/mysql_mongo.py:76-85 | At the first failing table, the earlier tables are stored in full and its partial trace follows. Its exception escapes unchanged, and no later table is converted or stored. |
| ConvertTask.ConvertDataMatchesReference | ckanext/mysql2mongodb/dataconv/task/mysql_mongo.py:67-85 | When both schema lookups succeed and every listed table succeeds, `convert_data` passes. Its store calls are exactly the reference trace of the listed tables: one per chunk, in table and chunk order. |
| ConvertTask.ConvertDataFirstFailure | ckanext/mysql2mongodb/dataconv/task/mysql_mongo.py:67-88 | When both lookups succeed, the first failing table ends `convert_data`. The earlier tables are stored in full, its partial trace follows, and its exception is the task's outcome. |
| ValidateTask.FalseKey | ckanext/mysql2mongodb/dataconv/task/mysql_mongo.py:114 | The false-index key lies under the run's prefix, so the prefix-wide clear removes it. |
| ValidateTask.Indexes | ckanext/mysql2mongodb/dataconv/task/mysql_mongo.py:109-111 | The document-store query is built from exactly the sampled rows' indexes, in order. |
| ValidateTask.ChunkFalseIndexes | ckanext/mysql2mongodb/dataconv/task/mysql_mongo.py:105-113 | A short chunk's false indexes are those of comparing the whole chunk. An out-of-range sample position raises the position error before anything is fetched. |
| ValidateTask.ValidateChunks | ckanext/mysql2mongodb/dataconv/task/mysql_mongo.py:103-114 | The chunk loop only appends to the run's key. It passes if and only if every chunk samples and compares. Then the list has grown by exactly each chunk's own false indexes, chunk after chunk. |
| ValidateTask.ValidateTable | ckanext/mysql2mongodb/dataconv/task/mysql_mongo.py:101-118 | A table's pass only appends to the run's key. A pass that does not raise leaves that list empty. |
| ValidateTask.Step | ckanext/mysql2mongodb/dataconv/task/mysql_mongo.py:100-129 | Every iteration visits its table, and adds at most one log entry while keeping the earlier ones. |
| ValidateTask.Loop | ckanext/mysql2mongodb/dataconv/task/mysql_mongo.py:100-129 | The log only grows. Once an exception escapes, nothing more changes. A loop that ends without an escaping exception has visited every table, in list order. |
| ValidateTask.ValidateData | ckanext/mysql2mongodb/dataconv/task/mysql_mongo.py:89-134 | Earlier log entries are kept. A run that completes leaves nothing under its cache prefix. A failing primary-key-map lookup, or a failing table-name lookup after it, escapes unchanged as the task's outcome. No table is visited, and the cache and the log are left as they were. |
| ValidateProps.LargeChunkComparesSampledRows | ckanext/mysql2mongodb/dataconv/task/mysql_mongo.py:106-113 | For a chunk of at least the chunk size whose sampler positions lie inside it, documents are fetched for the indexes of the rows at those positions, in order. The validator compares exactly those rows with the fetched documents, and a failing fetch escapes unchanged. |
| ValidateProps.ChunkLoopStopsAtFirstFailure | ckanext/mysql2mongodb/dataconv/task/mysql_mongo.py:103-114 | The first chunk that raises stops the chunk loop. The indexes of the earlier chunks stay appended, and its exception is the outcome. |
| ValidateProps.TableEarlyFailureEscapes | ckanext/mysql2mongodb/dataconv/task/mysql_mongo.py:102-103 | An exception from the row-count check escapes the table unchanged. A table missing from the primary-key map raises the key error. Either way no chunk is read and the cache is untouched. |
| ValidateProps.TableChunkFailureEscapes | ckanext/mysql2mongodb/dataconv/task/mysql_mongo.py:104-114 | When a chunk's sampling, document fetch or comparison raises, that exception is the table's outcome, not the flow signal. The earlier chunks' indexes stay appended and the flag test is never reached. |
| ValidateProps.ChunkLoopOutcomeIgnoresCache | ckanext/mysql2mongodb/dataconv/task/mysql_mongo.py:103-114 | Whether the chunk loop raises does not depend on the cache. |
| ValidateProps.TableFlaggedIffFalseIndexes | ckanext/mysql2mongodb/dataconv/task/mysql_mongo.py:103-117 | After a table's chunks, the list length is its initial length plus the number of false indexes of all chunks. The table is flagged if and only if that length is not zero, and the description carries it. |
| ValidateProps.ChunkLoopKeyDependsOnlyOnKey | ckanext/mysql2mongodb/dataconv/task/mysql_mongo.py:103-114 | Two caches with the same list under the run's key leave the same list under it after the chunk loop. |
| ValidateProps.TableOutcomeDependsOnlyOnKey | ckanext/mysql2mongodb/dataconv/task/mysql_mongo.py:103-117 | Two caches with the same list under the run's key give a table the same outcome and leave the same list under that key. |
| ValidateProps.StepOnCleanCache | ckanext/mysql2mongodb/dataconv/task/mysql_mongo.py:100-129 | From a cache clean under the prefix, the table's own verdict decides the iteration. A passing table leaves the state as it was. A flagged table adds exactly its one entry, `(resource_id, package_id, db_name, table_name, description)`, and leaves the prefix clear. Any other exception stops the loop. |
| ValidateProps.LoopMatchesVerdicts | ckanext/mysql2mongodb/dataconv/task/mysql_mongo.py:100-129 | Partial-failure isolation. From a clean cache, the loop's log, visits and escaping exception are those of the reference in which each table is judged alone. A completed loop leaves the prefix clear. |
| ValidateProps.LoopComposes | ckanext/mysql2mongodb/dataconv/task/mysql_mongo.py:100 | Running the loop over a concatenated table list is running it over the first part, then over the second from the state the first left. |
| ValidateProps.CleanAtEveryIteration | ckanext/mysql2mongodb/dataconv/task/mysql_mongo.py:115-128 | From a clean cache, the cache is clean under the prefix at the start of every table iteration. |
| ValidateProps.ExpectedAllRecoverable | ckanext/mysql2mongodb/dataconv/task/mysql_mongo.py:100-129 | When no table raises anything but the flow signal, every table is visited in order, nothing escapes, and there is one entry per flagged table. |
| ValidateProps.ExpectedStopsAtFirstEscape | ckanext/mysql2mongodb/dataconv/task/mysql_mongo.py:100-134 | At the first table that raises another exception, the tables up to it are visited and its exception escapes unchanged. No later table is visited, and the log holds only the earlier tables' entries. |
| ValidateProps.TableKeepsOtherNamespaces | ckanext/mysql2mongodb/dataconv/task/mysql_mongo.py:114 | A table's pass changes the cache only under the run's prefix. |
| ValidateProps.LoopKeepsOtherNamespaces | ckanext/mysql2mongodb/dataconv/task/mysql_mongo.py:100-129 | The table loop, clears included, changes the cache only under the run's prefix. |
| ValidateProps.ValidateDataKeepsOtherNamespaces | ckanext/mysql2mongodb/dataconv/task/mysql_mongo.py:89-134 | `validate_data` changes the cache only under its own prefix, whether it completes or an exception escapes. |
| ValidateProps.ValidateDataOnCleanCache | ckanext/mysql2mongodb/dataconv/task/mysql_mongo.py:95-134 | From a clean cache, `validate_data` appends the reference's entries to the log and visits the reference's tables. It completes exactly when the reference does, and otherwise re-raises the reference's exception. |
| ValidateProps.MiddleTableFlagIsolated | ckanext/mysql2mongodb/dataconv/task/mysql_mongo.py:100-130 | With three tables where only the middle one is flagged: all three are visited, exactly one entry is logged (the middle table's), the task completes, and the prefix is clear. |
| ValidateProps.StaleEntriesFlagTable | ckanext/mysql2mongodb/dataconv/task/mysql_mongo.py:114-117 | For one table's pass on a given cache: a table with no mismatched rows passes on its own, yet it is flagged when entries are already under the run's key, and the description counts exactly those entries. |
| ValidateProps.ValidateDataFlagsStaleFirstTable | ckanext/mysql2mongodb/dataconv/task/mysql_mongo.py:89-128 | The cache is not cleared when a run starts. Entries an earlier run left under the run's key flag a first table that passes on its own. The run's first new log entry names that table and counts exactly those stale entries. |
| ValidateProps.LoopEscapeKeepsEntries | ckanext/mysql2mongodb/dataconv/task/mysql_mongo.py:100-134 | From a clean cache, when a table is the first to raise something other than the flow signal, the loop ends with that exception. The entries that table appended stay under the run's key. |
| ValidateProps.ValidateDataEscapeSkipsFinalClear | ckanext/mysql2mongodb/dataconv/task/mysql_mongo.py:100-134 | In the same situation, `validate_data` raises that exception and skips the final clear: the run's key still holds the escaping table's own entries. |
| ValidateProps.TableStreamEndEscapes | ckanext/mysql2mongodb/dataconv/task/mysql_mongo.py:104-118 | After chunks that all compare, whatever the table's stream raises at its end, the flow signal included, is the table's outcome. Every chunk's indexes stay appended under the run's key. |
| ValidateProps.EscapeLeavesAppendedEntries | ckanext/mysql2mongodb/dataconv/task/mysql_mongo.py:103-134 | An exception other than the flow signal that ends a table's stream after its chunks escapes. That table's appended indexes are still in the cache, and there is no log entry. |

## Left out

- File-system I/O. The HTTP download, the uploads, directory creation and removal, and path lookup in `file_system_handler.py` become the single `download` outcome, whose effect is not modelled.
- The validator-log table migration. It declares columns and has no behaviour. Its generated `log_id` and `created_time` are not part of `LogEntry`.
- The MySQL, MongoDB, file-system, sampler, transformation and validator bodies (`MySQLHandler`, `MongoHandler`, `file_system_handler`, `lightweight_coreset`, `convert_mysql_to_mongodb`, `transform_mysql_data_for_coreset_algorithm`, `validator.*`). Their code is not part of this model, so they are arbitrary functions in `Env`. `CacheHandler` and `ValidatorLogHandler` are not among them: they are the fixed map operations of `MismatchCache` and the log appends of `Step`.
- Cache, log and handler-construction failures. `append_list`, `get_list_length`, `clear_cache`, `write_log` and the handler constructors never raise in the model, because the cache is a map and the log a sequence. In the source, `write_log` raising inside the `except` handler would escape with no clear, and `clear_cache` raising after a flag would escape with the log entry already written.
- `clear_cache`: its body is not part of this model. `ClearPrefix` assumes it deletes every key that starts with the prefix.
- `append_list`: assumed to be a Redis-style list push, where appending nothing creates no key.
- The mismatch cache seen by the schema lookups. `get_table_datatype_map`, `get_table_name_list` and `get_table_primary_keys_map` receive the cache prefix that `clear_cache` wipes. Their code is not part of this model, so they are taken to neither read nor write the mismatch cache. The `Clean` premises of `ValidateProps.ValidateDataOnCleanCache` and `ValidateProps.MiddleTableFlagIsolated`, and `ValidateProps.ValidateDataKeepsOtherNamespaces`, rely on this assumption.
- Concurrent use of the mismatch cache. The cache is an external store, but the model assumes a run has exclusive access to it from its first call to its last. In the source, another run with the same prefix, or with a nested prefix (`FileNames.CachePrefixesCanNest`), could append or clear under the run's key while a table is being checked, and so hide or invent mismatches. `ValidateProps.CleanAtEveryIteration`, `ValidateProps.LoopMatchesVerdicts` and every `Clean` premise rely on this assumption.
- The document-store query construction. `from_pandas_index_to_dict` and `from_pandas_index_dict_to_mongodb_query` are folded into `fetchTarget`, which receives the sampled rows' index values in order. Their code is not part of this model.
- `compare_total_rows`: may pass or raise any `Error`, the flow signal included, because which exception a row-count mismatch raises is not visible. The same holds for every collaborator in `Env` that returns a `Result`, `Outcome` or `Stream`.
- The values of `SQL_FILE_EXTENSION`, `DATABASE_CHUNK_SIZE`, `INCORRECT_VALUE` and `REDIS_VALIDATOR_FALSE_INDEXES`. `consts.py` is not part of this model, so they are fields of `Env`.
- Sampling.ChosenPositions: the target size `round(len * SAMPLE_PERCENTAGE)` is the abstract `sampleSize(n)`, because floating point and `round` are not modelled.
- Sampling.SubFrame: negative positions, which `iloc` counts from the end, are not modelled. Positions are natural numbers.
- The coreset transformation and the sampler raising exceptions. They are total in the model. Only the position lookup, the document fetch and the comparison can raise there.
- pandas and numpy mechanics beyond row order and position lookup, such as dtypes. Each chunk's false indexes are appended as a list with one entry per `RowIndex`. `np.append` flattens its input, so if the validator returns composite-key tuples, the source pushes one cache entry per key component. The count in the `INCORRECT_VALUE` description can then be larger than the model's. Whether a table is flagged is the same either way.
- `convert_schema`, `export_validator_report`, `dump_data`, `upload_converted_data`, `upload_validator_report`. Each is one collaborator call plus a log line and a re-raise. Only the database-name split of `convert_schema` is modelled, as `DbName`.
- Logging and the error-code lines. They have no effect on the outcome, and every `except Exception` re-raises the same exception, which the model returns unchanged.

=== FILE: convert_task.dfy ===
/** The `convert_data` task: every table of the imported schema is streamed
    chunk by chunk from the relational source, each chunk converted with the
    table's column datatypes and stored into the table's collection. */
module ConvertTask {
  import opened Errors
  import opened FileNames
  import opened Handlers

  /** One call of `store_data_to_collection`. */
  datatype StoreCall = StoreCall(db: string, table: string, docs: seq<Doc>)

  /** The store calls made, in order, and how the task completed. */
  datatype ConvertRun = ConvertRun(stored: seq<StoreCall>, outcome: Outcome)

  /** One chunk converts and stores without an exception. */
  predicate ChunkSucceeds(env: Env, db: string, table: string, types: ColumnTypes, chunk: seq<Row>)
  {
    var docs := env.convert(chunk, types);
    docs.Ok? && env.storeDocs(db, table, docs.value).Passed?
  }

  /** The store call made for one chunk whose conversion succeeds. */
  function StoreOf(env: Env, db: string, table: string, types: ColumnTypes, chunk: seq<Row>): StoreCall
    requires env.convert(chunk, types).Ok?
  {
    StoreCall(db, table, env.convert(chunk, types).value)
  }

  /** The inner loop over one table's chunks: convert, then store, one
      chunk after the other; the first exception stops the loop. */
  function ConvertChunks(env: Env, db: string, table: string, types: ColumnTypes, chunks: seq<seq<Row>>): (r: ConvertRun)
    ensures |r.stored| <= |chunks|
    ensures forall i :: 0 <= i < |r.stored| ==>
      env.convert(chunks[i], types).Ok? && r.stored[i] == StoreOf(env, db, table, types, chunks[i])
    ensures forall i :: 0 <= i < |r.stored| - 1 ==> ChunkSucceeds(env, db, table, types, chunks[i])
    ensures r.outcome.Passed? <==> forall i :: 0 <= i < |chunks| ==> ChunkSucceeds(env, db, table, types, chunks[i])
    ensures r.outcome.Passed? ==> |r.stored| == |chunks|
    decreases |chunks|
  {
    if |chunks| == 0 then ConvertRun([], Passed)
    else
      match env.convert(chunks[0], types)
      case Err(e) => ConvertRun([], Raised(e))
      case Ok(docs) =>
        var call := StoreCall(db, table, docs);
        match env.storeDocs(db, table, docs)
        case Raised(e) => ConvertRun([call], Raised(e))
        case Passed =>
          var rest := ConvertChunks(env, db, table, types, chunks[1..]);
          ConvertRun([call] + rest.stored, rest.outcome)
  }

  /** One table: look up its datatypes, stream its chunks, convert them; an
      exception the stream raises after its last chunk escapes too. */
  function ConvertTable(env: Env, db: string, types: DatatypeMap, table: string): (r: ConvertRun)
    ensures forall i :: 0 <= i < |r.stored| ==> r.stored[i].db == db && r.stored[i].table == table
  {
    if table !in types then ConvertRun([], Raised(MissingKey(table)))
    else
      var stream := env.fetchForMongo(db, table, types[table]);
      var r := ConvertChunks(env, db, table, types[table], stream.chunks);
      if r.outcome.Raised? then r else ConvertRun(r.stored, stream.end)
  }

  /** The outer loop over the table list; the first exception stops it. */
  function ConvertTables(env: Env, db: string, types: DatatypeMap, tables: seq<string>): (r: ConvertRun)
    ensures forall i :: 0 <= i < |r.stored| ==> r.stored[i].db == db
    decreases |tables|
  {
    if |tables| == 0 then ConvertRun([], Passed)
    else
      var first := ConvertTable(env, db, types, tables[0]);
      if first.outcome.Raised? then first
      else
        var rest := ConvertTables(env, db, types, tables[1..]);
        ConvertRun(first.stored + rest.stored, rest.outcome)
  }

  /** `convert_data(resource_id, sql_file_name, package_id)`. */
  function ConvertData(env: Env, resourceId: string, fileName: string, packageId: string): (r: ConvertRun)
    ensures forall i :: 0 <= i < |r.stored| ==> r.stored[i].db == DbName(fileName)
    ensures var types := env.datatypeMap(DbName(fileName), CachePrefix(resourceId, packageId));
      types.Err? ==> r == ConvertRun([], Raised(types.error))
    ensures var types := env.datatypeMap(DbName(fileName), CachePrefix(resourceId, packageId));
      var names := env.tableNames(DbName(fileName), CachePrefix(resourceId, packageId));
      types.Ok? && names.Err? ==> r == ConvertRun([], Raised(names.error))
  {
    var db := DbName(fileName);
    var prefix := CachePrefix(resourceId, packageId);
    match env.datatypeMap(db, prefix)
    case Err(e) => ConvertRun([], Raised(e))
    case Ok(types) =>
      match env.tableNames(db, prefix)
      case Err(e) => ConvertRun([], Raised(e))
      case Ok(tables) =>
        ConvertTables(env, db, types, tables)
  }

  /** Every chunk of a table streams, converts and stores. */
  predicate TableSucceeds(env: Env, db: string, types: DatatypeMap, table: string)
  {
    && table in types
    && var stream := env.fetchForMongo(db, table, types[table]);
    && stream.end.Passed?
    && forall i :: 0 <= i < |stream.chunks| ==> ChunkSucceeds(env, db, table, types[table], stream.chunks[i])
  }

  /** The reference trace of chunks that all succeed: one store per chunk,
      in chunk order, holding that chunk converted with the given datatypes. */
  function ChunkStores(env: Env, db: string, table: string, types: ColumnTypes, chunks: seq<seq<Row>>): (stores: seq<StoreCall>)
    requires forall i :: 0 <= i < |chunks| ==> env.convert(chunks[i], types).Ok?
    ensures |stores| == |chunks|
    ensures forall i :: 0 <= i < |chunks| ==> stores[i] == StoreCall(db, table, env.convert(chunks[i], types).value)
  {
    seq(|chunks|, i requires 0 <= i < |chunks| => StoreOf(env, db, table, types, chunks[i]))
  }

  /** The reference trace of a table: its streamed chunks' stores. */
  function ExpectedTableStores(env: Env, db: string, types: DatatypeMap, table: string): seq<StoreCall>
    requires TableSucceeds(env, db, types, table)
  {
    var stream := env.fetchForMongo(db, table, types[table]);
    ChunkStores(env, db, table, types[table], stream.chunks)
  }

  /** The reference trace of a whole run, table after table. */
  function ExpectedStores(env: Env, db: string, types: DatatypeMap, tables: seq<string>): seq<StoreCall>
    requires forall i :: 0 <= i < |tables| ==> TableSucceeds(env, db, types, tables[i])
    decreases |tables|
  {
    if |tables| == 0 then []
    else ExpectedTableStores(env, db, types, tables[0]) + ExpectedStores(env, db, types, tables[1..])
  }

  /** A succeeding table passes and stores exactly its reference trace. */
  lemma TableSucceedsStores(env: Env, db: string, types: DatatypeMap, table: string)
    requires TableSucceeds(env, db, types, table)
    ensures ConvertTable(env, db, types, table) == ConvertRun(ExpectedTableStores(env, db, types, table), Passed)
  {
  }

  /** When every table succeeds, the run passes and its store calls are
      exactly the reference trace: one-for-one with the chunks, in order. */
  lemma {:induction false} ConvertTablesMatchesReference(env: Env, db: string, types: DatatypeMap, tables: seq<string>)
    requires forall i :: 0 <= i < |tables| ==> TableSucceeds(env, db, types, tables[i])
    ensures ConvertTables(env, db, types, tables) == ConvertRun(ExpectedStores(env, db, types, tables), Passed)
    decreases |tables|
  {
    if |tables| > 0 {
      TableSucceedsStores(env, db, types, tables[0]);
      ConvertTablesMatchesReference(env, db, types, tables[1..]);
    }
  }

  /** The chunk loop after a first chunk that succeeds: its store, then
      the rest of the loop. */
  lemma ConvertChunksCons(env: Env, db: string, table: string, types: ColumnTypes, chunks: seq<seq<Row>>)
    requires |chunks| > 0 && ChunkSucceeds(env, db, table, types, chunks[0])
    ensures var rest := ConvertChunks(env, db, table, types, chunks[1..]);
      ConvertChunks(env, db, table, types, chunks) ==
        ConvertRun([StoreOf(env, db, table, types, chunks[0])] + rest.stored, rest.outcome)
  {
  }

  /** The reference trace of converting chunks: the first store, then the rest. */
  lemma ChunkStoresCons(env: Env, db: string, table: string, types: ColumnTypes, chunks: seq<seq<Row>>)
    requires |chunks| > 0
    requires forall i :: 0 <= i < |chunks| ==> env.convert(chunks[i], types).Ok?
    ensures ChunkStores(env, db, table, types, chunks) ==
      [StoreOf(env, db, table, types, chunks[0])] + ChunkStores(env, db, table, types, chunks[1..])
  {
    assert forall i :: 0 <= i < |chunks| - 1 ==> chunks[1..][i] == chunks[i + 1];
  }

  /** The chunk loop when its first chunk fails. */
  lemma ConvertChunksHeadFails(env: Env, db: string, table: string, types: ColumnTypes, chunks: seq<seq<Row>>)
    requires |chunks| > 0 && !ChunkSucceeds(env, db, table, types, chunks[0])
    ensures ConvertChunks(env, db, table, types, chunks) == FailedRun(env, db, table, types, [], chunks[0])
  {
  }

  /** How the chunk loop ends after a run of succeeding chunks `done`
      when the chunk `failing` fails. */
  function FailedRun(env: Env, db: string, table: string, types: ColumnTypes, done: seq<StoreCall>, failing: seq<Row>): ConvertRun
  {
    var docs := env.convert(failing, types);
    if docs.Err? then ConvertRun(done, Raised(docs.error))
    else ConvertRun(done + [StoreCall(db, table, docs.value)], env.storeDocs(db, table, docs.value))
  }

  /** The first chunk that fails stops the chunk loop: the chunks before it
      are stored in full; then either its conversion raises, and that
      exception escapes with nothing more stored, or its store is attempted
      and the store's exception escapes. */
  lemma {:induction false} ConvertChunksStopsAtFirstFailure(env: Env, db: string, table: string, types: ColumnTypes,
                                                            chunks: seq<seq<Row>>, k: nat)
    requires k < |chunks|
    requires forall i :: 0 <= i < k ==> ChunkSucceeds(env, db, table, types, chunks[i])
    requires !ChunkSucceeds(env, db, table, types, chunks[k])
    ensures ConvertChunks(env, db, table, types, chunks) ==
        FailedRun(env, db, table, types, ChunkStores(env, db, table, types, chunks[..k]), chunks[k])
    decreases k
  {
    if k == 0 {
      assert chunks[..0] == [];
      ConvertChunksHeadFails(env, db, table, types, chunks);
    } else {
      var tail := chunks[1..];
      assert tail[k - 1] == chunks[k];
      assert forall i :: 0 <= i < k - 1 ==> tail[i] == chunks[i + 1];
      ConvertChunksStopsAtFirstFailure(env, db, table, types, tail, k - 1);
      FailedRunAfterSuccess(env, db, table, types, chunks, k);
    }
  }

  /** One succeeding chunk in front of the loop's failure adds its store in
      front of the failed run's stores. */
  lemma FailedRunAfterSuccess(env: Env, db: string, table: string, types: ColumnTypes, chunks: seq<seq<Row>>, k: nat)
    requires 0 < k < |chunks| && ChunkSucceeds(env, db, table, types, chunks[0])
    requires forall i :: 0 <= i < k ==> env.convert(chunks[i], types).Ok?
    requires ConvertChunks(env, db, table, types, chunks[1..]) ==
      FailedRun(env, db, table, types, ChunkStores(env, db, table, types, chunks[1..][..k - 1]), chunks[k])
    ensures ConvertChunks(env, db, table, types, chunks) ==
      FailedRun(env, db, table, types, ChunkStores(env, db, table, types, chunks[..k]), chunks[k])
  {
    ConvertChunksCons(env, db, table, types, chunks);
    ChunkStoresSliceCons(env, db, table, types, chunks, k);
    FailedRunPrepend(env, db, table, types, StoreOf(env, db, table, types, chunks[0]),
                     ChunkStores(env, db, table, types, chunks[1..][..k - 1]), chunks[k]);
  }

  /** The reference trace of the first `k` chunks starts with the first
      chunk's store, followed by the trace of the next `k - 1` chunks. */
  lemma ChunkStoresSliceCons(env: Env, db: string, table: string, types: ColumnTypes, chunks: seq<seq<Row>>, k: nat)
    requires 0 < k <= |chunks|
    requires forall i :: 0 <= i < k ==> env.convert(chunks[i], types).Ok?
    ensures ChunkStores(env, db, table, types, chunks[..k]) ==
      [StoreOf(env, db, table, types, chunks[0])] + ChunkStores(env, db, table, types, chunks[1..][..k - 1])
  {
    assert chunks[..k][0] == chunks[0];
    assert chunks[..k][1..] == chunks[1..][..k - 1];
    ChunkStoresCons(env, db, table, types, chunks[..k]);
  }

  /** A store made before the stores a failing chunk follows stays at the
      front of the trace. */
  lemma FailedRunPrepend(env: Env, db: string, table: string, types: ColumnTypes,
                         head: StoreCall, done: seq<StoreCall>, failing: seq<Row>)
    ensures var f := FailedRun(env, db, table, types, done, failing);
      FailedRun(env, db, table, types, [head] + done, failing) == ConvertRun([head] + f.stored, f.outcome)
  {
    var docs := env.convert(failing, types);
    if docs.Ok? {
      assert [head] + done + [StoreCall(db, table, docs.value)] == [head] + (done + [StoreCall(db, table, docs.value)]);
    }
  }

  /** A table missing from the datatype map raises the key error before
      anything is fetched or stored. */
  lemma MissingDatatypesStoreNothing(env: Env, db: string, types: DatatypeMap, table: string)
    requires table !in types
    ensures ConvertTable(env, db, types, table) == ConvertRun([], Raised(MissingKey(table)))
  {
  }

  /** A table's first failing chunk ends the table exactly as it ends the
      chunk loop; an exception the stream raises after chunks that all
      succeed escapes unchanged, after every chunk was stored. */
  lemma TableFailureEscapes(env: Env, db: string, types: DatatypeMap, table: string, k: nat)
    requires table in types
    requires var chunks := env.fetchForMongo(db, table, types[table]).chunks;
      k <= |chunks| &&
      (forall i :: 0 <= i < k ==> ChunkSucceeds(env, db, table, types[table], chunks[i])) &&
      (k < |chunks| ==> !ChunkSucceeds(env, db, table, types[table], chunks[k]))
    ensures var stream := env.fetchForMongo(db, table, types[table]);
      var done := ChunkStores(env, db, table, types[table], stream.chunks[..k]);
      var r := ConvertTable(env, db, types, table);
      r == if k == |stream.chunks| then ConvertRun(done, stream.end)
           else FailedRun(env, db, table, types[table], done, stream.chunks[k])
  {
    var stream := env.fetchForMongo(db, table, types[table]);
    var r := ConvertChunks(env, db, table, types[table], stream.chunks);
    if k == |stream.chunks| {
      assert stream.chunks[..k] == stream.chunks;
      assert r.outcome.Passed?;
      assert r.stored == ChunkStores(env, db, table, types[table], stream.chunks);
    } else {
      ConvertChunksStopsAtFirstFailure(env, db, table, types[table], stream.chunks, k);
    }
  }

  /** Tables that all succeed, followed by any others: their reference
      trace, then whatever the rest of the run stores and raises. */
  lemma {:induction false} ConvertTablesAppend(env: Env, db: string, types: DatatypeMap, a: seq<string>, b: seq<string>)
    requires forall i :: 0 <= i < |a| ==> TableSucceeds(env, db, types, a[i])
    ensures var rest := ConvertTables(env, db, types, b);
      ConvertTables(env, db, types, a + b) == ConvertRun(ExpectedStores(env, db, types, a) + rest.stored, rest.outcome)
    decreases |a|
  {
    if |a| == 0 {
      assert a + b == b;
    } else {
      var head := ExpectedTableStores(env, db, types, a[0]);
      var tail := ExpectedStores(env, db, types, a[1..]);
      var rest := ConvertTables(env, db, types, b);
      TableSucceedsStores(env, db, types, a[0]);
      assert (a + b)[0] == a[0];
      assert (a + b)[1..] == a[1..] + b;
      ConvertTablesAppend(env, db, types, a[1..], b);
      assert head + tail + rest.stored == head + (tail + rest.stored);
    }
  }

  /** The first failing table stops the run: the tables before it are
      stored in full, its own partial trace follows, its exception escapes
      unchanged, and no later table is converted or stored. */
  lemma FirstFailureStopsRun(env: Env, db: string, types: DatatypeMap, tables: seq<string>, k: nat)
    requires k < |tables|
    requires forall i :: 0 <= i < k ==> TableSucceeds(env, db, types, tables[i])
    requires ConvertTable(env, db, types, tables[k]).outcome.Raised?
    ensures var failed := ConvertTable(env, db, types, tables[k]);
      ConvertTables(env, db, types, tables) ==
        ConvertRun(ExpectedStores(env, db, types, tables[..k]) + failed.stored, failed.outcome)
  {
    assert tables == tables[..k] + tables[k..];
    assert tables[k..][0] == tables[k];
    ConvertTablesAppend(env, db, types, tables[..k], tables[k..]);
  }

  /** When both schema lookups succeed and every listed table succeeds,
      `convert_data` passes and its store calls are exactly the reference
      trace of the listed tables. */
  lemma ConvertDataMatchesReference(env: Env, resourceId: string, fileName: string, packageId: string)
    requires env.datatypeMap(DbName(fileName), CachePrefix(resourceId, packageId)).Ok?
    requires env.tableNames(DbName(fileName), CachePrefix(resourceId, packageId)).Ok?
    requires var db := DbName(fileName);
      var prefix := CachePrefix(resourceId, packageId);
      var types := env.datatypeMap(db, prefix).value;
      var tables := env.tableNames(db, prefix).value;
      forall i :: 0 <= i < |tables| ==> TableSucceeds(env, db, types, tables[i])
    ensures var db := DbName(fileName);
      var prefix := CachePrefix(resourceId, packageId);
      var types := env.datatypeMap(db, prefix).value;
      var tables := env.tableNames(db, prefix).value;
      ConvertData(env, resourceId, fileName, packageId) == ConvertRun(ExpectedStores(env, db, types, tables), Passed)
  {
    var db := DbName(fileName);
    var prefix := CachePrefix(resourceId, packageId);
    ConvertTablesMatchesReference(env, db, env.datatypeMap(db, prefix).value, env.tableNames(db, prefix).value);
  }

  /** When both schema lookups succeed, the first failing table ends
      `convert_data`: the tables before it are stored in full, its own
      partial trace follows, and its exception is the task's outcome. */
  lemma ConvertDataFirstFailure(env: Env, resourceId: string, fileName: string, packageId: string, k: nat)
    requires env.datatypeMap(DbName(fileName), CachePrefix(resourceId, packageId)).Ok?
    requires env.tableNames(DbName(fileName), CachePrefix(resourceId, packageId)).Ok?
    requires var db := DbName(fileName);
      var prefix := CachePrefix(resourceId, packageId);
      var types := env.datatypeMap(db, prefix).value;
      var tables := env.tableNames(db, prefix).value;
      && k < |tables|
      && (forall i :: 0 <= i < k ==> TableSucceeds(env, db, types, tables[i]))
      && ConvertTable(env, db, types, tables[k]).outcome.Raised?
    ensures var db := DbName(fileName);
      var prefix := CachePrefix(resourceId, packageId);
      var types := env.datatypeMap(db, prefix).value;
      var tables := env.tableNames(db, prefix).value;
      var failed := ConvertTable(env, db, types, tables[k]);
      ConvertData(env, resourceId, fileName, packageId) ==
        ConvertRun(ExpectedStores(env, db, types, tables[..k]) + failed.stored, failed.outcome)
  {
    var db := DbName(fileName);
    var prefix := CachePrefix(resourceId, packageId);
    FirstFailureStopsRun(env, db, env.datatypeMap(db, prefix).value, env.tableNames(db, prefix).value, k);
  }
}

=== FILE: errors.dfy ===
/** The exceptions of the task layer and the result shapes that carry them.
    Python's raise/except becomes a value: an operation either passes or
    raises one `Error`, and a collaborator call returns a `Result`. */
module Errors {

  /** Every exception the task functions raise or let through. A collaborator
      may raise any of these, including `ValidationFlowIncomplete`: the
      validation loop recognises that one by its type, whatever raised it. */
  datatype Error =
    | InvalidFileExtension                          // InvalidFileExtensionError, raised by prepare
    | ValidationFlowIncomplete(description: string) // the one error the per-table loop catches
    | MissingKey(key: string)                       // KeyError from a table-keyed dictionary lookup
    | PositionsOutOfBounds                          // IndexError from positional row selection
    | Collaborator(code: string)                    // anything a handler, sampler or validator raises

  /** True for the validation-flow signal the per-table loop recovers from. */
  predicate IsFlowSignal(e: Error) {
    e.ValidationFlowIncomplete?
  }

  /** Completion of a step that produces no value. */
  datatype Outcome = Passed | Raised(error: Error)

  /** Completion of a step that produces a value. */
  datatype Result<+T> = Ok(value: T) | Err(error: Error)

  datatype Option<+T> = None | Some(value: T)
}

=== FILE: file_names.dfy ===
/** The string rules of the task layer: Python's `str.split('.')`, the file
    extension test of `prepare`, the database name and the cache prefix. */
module FileNames {

  /** No character of `p` is the separator. */
  predicate Free(p: string, sep: char)
  {
    forall j :: 0 <= j < |p| ==> p[j] != sep
  }

  /** Position of the first `c` in `s`, or `|s|` when there is none. */
  function IndexOf(s: string, c: char): (i: nat)
    ensures i <= |s|
    ensures i < |s| ==> s[i] == c
    ensures Free(s[..i], c)
  {
    if |s| == 0 then 0
    else if s[0] == c then 0
    else 1 + IndexOf(s[1..], c)
  }

  /** Python's `s.split(sep)` for a one-character separator: the text is cut
      at every separator, so there is always at least one part (the empty
      string splits into `[""]`) and no part holds the separator. */
  function Split(s: string, sep: char): (parts: seq<string>)
    ensures |parts| >= 1
    ensures forall k :: 0 <= k < |parts| ==> Free(parts[k], sep)
    decreases |s|
  {
    var i := IndexOf(s, sep);
    if i == |s| then [s]
    else [s[..i]] + Split(s[i + 1..], sep)
  }

  /** Inverse of `Split`: the parts glued back together with the separator. */
  function Join(parts: seq<string>, sep: char): string
  {
    if |parts| == 0 then ""
    else if |parts| == 1 then parts[0]
    else parts[0] + [sep] + Join(parts[1..], sep)
  }

  /** Joining the parts of a split with the separator restores the text. */
  lemma {:induction false} JoinSplit(s: string, sep: char)
    ensures Join(Split(s, sep), sep) == s
    decreases |s|
  {
    var i := IndexOf(s, sep);
    if i < |s| {
      var rest := Split(s[i + 1..], sep);
      assert Split(s, sep) == [s[..i]] + rest;
      JoinSplit(s[i + 1..], sep);
      JoinCons(s[..i], rest, sep);
      assert s == s[..i] + [sep] + s[i + 1..];
    }
  }

  /** Joining a part in front of at least one more. */
  lemma JoinCons(p: string, rest: seq<string>, sep: char)
    requires |rest| >= 1
    ensures Join([p] + rest, sep) == p + [sep] + Join(rest, sep)
  {
    assert ([p] + rest)[1..] == rest;
  }

  /** `Split` undoes `Join` whenever no part holds the separator. */
  lemma {:induction false} SplitJoin(parts: seq<string>, sep: char)
    requires |parts| >= 1
    requires forall k :: 0 <= k < |parts| ==> Free(parts[k], sep)
    ensures Split(Join(parts, sep), sep) == parts
    decreases |parts|
  {
    if |parts| == 1 {
      IndexOfFree(parts[0], sep);
    } else {
      var tail := Join(parts[1..], sep);
      assert Join(parts, sep) == parts[0] + [sep] + tail;
      SplitAtFirst(parts[0], sep, tail);
      SplitJoin(parts[1..], sep);
      assert parts == [parts[0]] + parts[1..];
    }
  }

  /** A separator-free field followed by the separator is the first part. */
  lemma SplitAtFirst(p: string, sep: char, t: string)
    requires Free(p, sep)
    ensures Split(p + [sep] + t, sep) == [p] + Split(t, sep)
  {
    var s := p + [sep] + t;
    IndexOfAfterFree(p, sep, t);
    assert s[..|p|] == p;
    assert s[|p| + 1..] == t;
  }

  lemma IndexOfFree(s: string, c: char)
    requires Free(s, c)
    ensures IndexOf(s, c) == |s|
  {
  }

  lemma {:induction false} IndexOfAfterFree(p: string, c: char, t: string)
    requires Free(p, c)
    ensures IndexOf(p + [c] + t, c) == |p|
    decreases |p|
  {
    var s := p + [c] + t;
    if |p| > 0 {
      assert s[0] == p[0];
      assert s[1..] == p[1..] + [c] + t;
      IndexOfAfterFree(p[1..], c, t);
    }
  }

  /** Text before the first '.' of a file name: `name.split('.')[0]`. It is
      a prefix of the name without a '.', and it is either the whole name or
      followed by a '.'. */
  function DbName(fileName: string): (name: string)
    ensures name <= fileName
    ensures Free(name, '.')
    ensures name == fileName || fileName[|name|] == '.'
  {
    Split(fileName, '.')[0]
  }

  /** The last part of a split is a suffix of the text, preceded by the
      separator unless it is the whole text. */
  ghost predicate LastPartIsSuffix(s: string, sep: char, p: string)
  {
    |p| <= |s| && p == s[|s| - |p|..] && (|p| == |s| || s[|s| - |p| - 1] == sep)
  }

  /** Text after the last '.' of a file name, or the whole name when there is
      no '.': `name.split('.')[-1]`. */
  function Extension(fileName: string): (ext: string)
    ensures LastPartIsSuffix(fileName, '.', ext)
    ensures Free(ext, '.')
  {
    var parts := Split(fileName, '.');
    SplitLastIsSuffix(fileName, '.');
    parts[|parts| - 1]
  }

  /** A suffix of `s[i + 1..]` is the same suffix of `s`, and keeps the
      character before it. */
  lemma SuffixOfTail(s: string, i: nat, sep: char, p: string)
    requires i < |s| && s[i] == sep
    requires LastPartIsSuffix(s[i + 1..], sep, p)
    ensures LastPartIsSuffix(s, sep, p)
  {
    var rest := s[i + 1..];
    assert rest[|rest| - |p|..] == s[|s| - |p|..];
    if |p| < |rest| {
      assert s[|s| - |p| - 1] == rest[|rest| - |p| - 1];
    }
  }

  lemma {:induction false} SplitLastIsSuffix(s: string, sep: char)
    ensures var parts := Split(s, sep);
      LastPartIsSuffix(s, sep, parts[|parts| - 1])
    decreases |s|
  {
    var i := IndexOf(s, sep);
    if i < |s| {
      SplitLastIsSuffix(s[i + 1..], sep);
      var tail := Split(s[i + 1..], sep);
      var parts := Split(s, sep);
      assert parts == [s[..i]] + tail;
      assert parts[|parts| - 1] == tail[|tail| - 1];
      SuffixOfTail(s, i, sep, tail[|tail| - 1]);
    }
  }

  /** The namespace of one migration run in the mismatch cache:
      `f'{resource_id}_{package_id}_'`. */
  function CachePrefix(resourceId: string, packageId: string): (prefix: string)
    ensures resourceId + "_" <= prefix && |prefix| == |resourceId| + |packageId| + 2
  {
    resourceId + "_" + packageId + "_"
  }

  /** The prefix decodes back into the two identifiers when neither holds
      '_'. */
  lemma CachePrefixDecodes(resourceId: string, packageId: string)
    requires Free(resourceId, '_') && Free(packageId, '_')
    ensures Split(CachePrefix(resourceId, packageId), '_') == [resourceId, packageId, ""]
  {
    var parts := [resourceId, packageId, ""];
    assert Join(parts[2..], '_') == "";
    assert Join(parts[1..], '_') == packageId + "_" + "";
    assert Join(parts, '_') == CachePrefix(resourceId, packageId);
    SplitJoin(parts, '_');
  }

  /** A '_'-free field followed by '_' is fixed by any string it prefixes. */
  lemma FieldPrefix(a: string, b: string, x: string, y: string)
    requires Free(a, '_') && Free(b, '_')
    requires a + "_" + x <= b + "_" + y
    ensures a == b && x <= y
  {
    var u := a + "_" + x;
    var v := b + "_" + y;
    assert u[|a|] == '_' && v[|b|] == '_';
    assert forall j :: 0 <= j < |a| ==> u[j] == a[j];
    assert forall j :: 0 <= j < |b| ==> v[j] == b[j];
    assert forall j :: 0 <= j < |u| ==> u[j] == v[j];
    assert a == u[..|a|];
    assert b == v[..|b|];
    assert x == u[|a| + 1..];
    assert y == v[|b| + 1..];
  }

  /** Two runs with '_'-free identifiers either have the same prefix or
      neither prefix starts the other, so the prefix-wide clear of one run
      never reaches a key of a different run. */
  lemma CachePrefixesSeparate(r1: string, p1: string, r2: string, p2: string)
    requires Free(r1, '_') && Free(p1, '_') && Free(r2, '_') && Free(p2, '_')
    requires CachePrefix(r1, p1) <= CachePrefix(r2, p2)
    ensures r1 == r2 && p1 == p2
  {
    assert CachePrefix(r1, p1) == r1 + "_" + (p1 + "_");
    assert CachePrefix(r2, p2) == r2 + "_" + (p2 + "_");
    FieldPrefix(r1, r2, p1 + "_", p2 + "_");
    assert p1 + "_" == p1 + "_" + "";
    assert p2 + "_" == p2 + "_" + "";
    FieldPrefix(p1, p2, "", "");
  }

  /** Without that restriction, distinct runs can nest: the prefix of
      resource "a", package "b" starts the prefix of resource "a", package
      "b_c", and two different pairs can even share one prefix. */
  lemma CachePrefixesCanNest()
    ensures CachePrefix("a", "b") <= CachePrefix("a", "b_c")
    ensures CachePrefix("a", "b") != CachePrefix("a", "b_c")
    ensures CachePrefix("a_b", "c") == CachePrefix("a", "b_c")
  {
    assert CachePrefix("a", "b") == CachePrefix("a", "b_c")[..4];
  }
}

=== FILE: handlers.dfy ===
/** What the task layer sees of its collaborators: the rows it streams, the
    documents it stores, the configuration constants, and every handler,
    sampler and validator call as a total function of its arguments. Their
    bodies are not part of this model; only the values they return are. */
module Handlers {
  import opened Errors

  /** The primary-key values of one row (possibly composite). */
  type RowIndex = seq<string>

  /** One relational row: its primary-key index and its column values. */
  datatype Row = Row(index: RowIndex, values: seq<string>)

  /** One converted document. */
  datatype Doc = Doc(fields: map<string, string>)

  /** Column name to declared datatype, for one table. */
  type ColumnTypes = map<string, string>

  /** A finite generator of chunks: the chunks it yields, in order, and then
      either normal exhaustion (`Passed`) or the exception it raises. */
  datatype Stream = Stream(chunks: seq<seq<Row>>, end: Outcome)

  /** The primary-key columns of every table known to the imported schema. */
  type PrimaryKeyMap = map<string, seq<string>>

  /** The column datatypes of every table known to the imported schema. */
  type DatatypeMap = map<string, ColumnTypes>

  datatype Env = Env(
    // constants
    sqlFileExtension: string,           // SQL_FILE_EXTENSION
    chunkSize: nat,                     // DATABASE_CHUNK_SIZE
    falseIndexesKey: string,            // REDIS_VALIDATOR_FALSE_INDEXES
    incorrectValue: nat -> string,      // INCORRECT_VALUE(count), the error description
    sampleSize: nat -> nat,             // round(n * SAMPLE_PERCENTAGE)
    // file system handler
    download: (string, string, string) -> Outcome,            // download_mysql_file_from_ckan(url, resource_id, name)
    // Mongo handler
    datatypeMap: (string, string) -> Result<DatatypeMap>,     // get_table_datatype_map(db, prefix)
    primaryKeyMap: (string, string) -> Result<PrimaryKeyMap>, // get_table_primary_keys_map(db, prefix)
    tableNames: (string, string) -> Result<seq<string>>,      // get_table_name_list(db, prefix)
    fetchTarget: (string, string, seq<string>, seq<RowIndex>) -> Result<seq<Row>>,
                                                              // to_pandas_dataframe(db, table, pk, query)
    storeDocs: (string, string, seq<Doc>) -> Outcome,         // store_data_to_collection(db, table, docs)
    // MySQL handler
    sourceChunks: (string, string, seq<string>) -> Stream,    // to_pandas_dataframe(db, table, pk, chunksize)
    fetchForMongo: (string, string, ColumnTypes) -> Stream,   // fetch_data_for_mongo(db, table, types)
    // transforms, sampler and validator
    convert: (seq<Row>, ColumnTypes) -> Result<seq<Doc>>,     // convert_mysql_to_mongodb
    transform: Row -> Row,                                    // transform_mysql_data_for_coreset_algorithm, per row
    coreset: (seq<Row>, nat) -> seq<nat>,                     // lightweight_coreset(frame, k), positions
    compareTotalRows: (string, string) -> Outcome,            // validator.compare_total_rows(db, table)
    findFalseIndexes: (seq<Row>, seq<Row>) -> Result<seq<RowIndex>>
                                                              // validator.find_false_indexes(source, target)
  )
}

=== FILE: mismatch_cache.dfy ===
/** The mismatch cache as an in-memory key/list store with the behaviour of
    a Redis list: a missing key reads as the empty list, appending nothing
    creates no key, and a clear removes every key that starts with a prefix. */
module MismatchCache {

  type Cache<T> = map<string, seq<T>>

  /** The list stored under `key`; empty when the key is absent. */
  function Get<T>(c: Cache<T>, key: string): seq<T>
  {
    if key in c then c[key] else []
  }

  /** `get_list_length`: the length of the list under `key`. */
  function ListLength<T>(c: Cache<T>, key: string): (n: nat)
    ensures n == 0 <==> key !in c || c[key] == []
  {
    |Get(c, key)|
  }

  /** `append_list`: the list under `key` is extended by `items`, in order,
      and no other key is touched. */
  function Append<T>(c: Cache<T>, key: string, items: seq<T>): (c': Cache<T>)
    ensures Get(c', key) == Get(c, key) + items
    ensures forall k :: k != key ==> Get(c', k) == Get(c, k)
    ensures forall k :: k != key ==> (k in c' <==> k in c)
    ensures items == [] ==> c' == c
  {
    if items == [] then c else c[key := Get(c, key) + items]
  }

  /** Appending twice is appending the concatenation once. */
  lemma AppendAppend<T>(c: Cache<T>, key: string, xs: seq<T>, ys: seq<T>)
    ensures Append(Append(c, key, xs), key, ys) == Append(c, key, xs + ys)
  {
    if xs != [] && ys != [] {
      assert Get(c, key) + xs + ys == Get(c, key) + (xs + ys);
    } else if xs == [] {
      assert xs + ys == ys;
    } else {
      assert xs + ys == xs;
    }
  }

  /** No key of the cache starts with `prefix`. */
  predicate Clean<T>(c: Cache<T>, prefix: string)
  {
    forall k :: k in c ==> !(prefix <= k)
  }

  /** Both caches hold the same keys and lists outside the prefix. */
  ghost predicate SameOutside<T>(c: Cache<T>, d: Cache<T>, prefix: string)
  {
    forall k :: !(prefix <= k) ==> (k in c <==> k in d) && Get(c, k) == Get(d, k)
  }

  /** `clear_cache(prefix)`: every key starting with `prefix` is removed and
      every other key keeps its list. */
  function ClearPrefix<T>(c: Cache<T>, prefix: string): (c': Cache<T>)
    ensures Clean(c', prefix)
    ensures SameOutside(c', c, prefix)
  {
    map k | k in c && !(prefix <= k) :: c[k]
  }

  /** Clearing is idempotent, and a clean cache is left as it is. */
  lemma ClearPrefixIdempotent<T>(c: Cache<T>, prefix: string)
    ensures ClearPrefix(ClearPrefix(c, prefix), prefix) == ClearPrefix(c, prefix)
    ensures Clean(c, prefix) ==> ClearPrefix(c, prefix) == c
  {
  }

  /** After a clear, every key under the prefix reads as the empty list. */
  lemma ClearedKeysReadEmpty<T>(c: Cache<T>, prefix: string, key: string)
    requires prefix <= key
    ensures ListLength(ClearPrefix(c, prefix), key) == 0
  {
  }

  lemma SameOutsideTransitive<T>(c: Cache<T>, d: Cache<T>, e: Cache<T>, prefix: string)
    requires SameOutside(c, d, prefix) && SameOutside(d, e, prefix)
    ensures SameOutside(c, e, prefix)
  {
  }
}

=== FILE: prepare_task.dfy ===
/** The `prepare` task: reject a dump whose file name does not carry the SQL
    extension, otherwise download it once. */
module PrepareTask {
  import opened Errors
  import opened FileNames
  import opened Handlers

  /** One call of the download collaborator. */
  datatype Download = Download(url: string, resourceId: string, fileName: string)

  /** The downloads `prepare` requested, in order, and how it completed. */
  datatype PrepareRun = PrepareRun(downloads: seq<Download>, outcome: Outcome)

  /** The extension test: the text after the last '.' (the whole name when
      there is none) equals the configured SQL extension. */
  predicate IsSqlFile(env: Env, fileName: string)
  {
    Extension(fileName) == env.sqlFileExtension
  }

  /** A name failing the extension test raises `InvalidFileExtension` before
      any download; a name passing it is downloaded exactly once, and the
      download's own exception, if any, escapes unchanged. */
  function Prepare(env: Env, url: string, resourceId: string, fileName: string): (r: PrepareRun)
    ensures r.downloads == [] <==> !IsSqlFile(env, fileName)
    ensures !IsSqlFile(env, fileName) ==> r.outcome == Raised(InvalidFileExtension)
    ensures IsSqlFile(env, fileName) ==>
      r.downloads == [Download(url, resourceId, fileName)] && r.outcome == env.download(url, resourceId, fileName)
  {
    if Extension(fileName) != env.sqlFileExtension then
      PrepareRun([], Raised(InvalidFileExtension))
    else
      PrepareRun([Download(url, resourceId, fileName)], env.download(url, resourceId, fileName))
  }

  /** A '.'-free suffix that is the whole name or follows a '.' is the
      extension: the two conditions single it out. */
  lemma ExtensionUnique(name: string, q: string)
    requires LastPartIsSuffix(name, '.', q) && Free(q, '.')
    ensures q == Extension(name)
  {
    var e := Extension(name);
    NoLongerSuffixPart(name, e, q);
    NoLongerSuffixPart(name, q, e);
  }

  /** A '.'-free suffix part is no longer than any other suffix part: the
      shorter one's preceding '.' would otherwise lie inside it. */
  lemma NoLongerSuffixPart(name: string, p: string, q: string)
    requires LastPartIsSuffix(name, '.', p)
    requires LastPartIsSuffix(name, '.', q) && Free(q, '.')
    ensures |q| <= |p|
  {
    assert forall j :: 0 <= j < |q| ==> q[j] == name[|name| - |q| + j];
  }

  /** The names `prepare` accepts, for a '.'-free extension: the bare
      extension itself, or any text followed by '.' and the extension. */
  lemma AcceptedFileNames(env: Env, fileName: string)
    requires Free(env.sqlFileExtension, '.')
    ensures var ext := env.sqlFileExtension;
      IsSqlFile(env, fileName) <==>
        fileName == ext ||
        (|fileName| > |ext| && fileName[|fileName| - |ext| - 1..] == ['.'] + ext)
  {
    var ext := env.sqlFileExtension;
    var e := Extension(fileName);
    if fileName == ext {
      ExtensionUnique(fileName, ext);
    } else if |fileName| > |ext| && fileName[|fileName| - |ext| - 1..] == ['.'] + ext {
      assert fileName[|fileName| - |ext|..] == ext;
      ExtensionUnique(fileName, ext);
    }
    if e == ext && fileName != ext {
      assert fileName[|fileName| - |ext| - 1..] == [fileName[|fileName| - |ext| - 1]] + fileName[|fileName| - |ext|..];
    }
  }

  /** A configured extension holding a '.' can never equal the text after
      the last '.', so every name is rejected and nothing is downloaded. */
  lemma DottedExtensionRejectsAll(env: Env, url: string, resourceId: string, fileName: string)
    requires !Free(env.sqlFileExtension, '.')
    ensures Prepare(env, url, resourceId, fileName) == PrepareRun([], Raised(InvalidFileExtension))
  {
  }
}

=== FILE: sampling.dfy ===
/** Choosing which rows of a chunk are compared: small chunks are compared
    in full, full-size chunks through the coreset sampler. */
module Sampling {
  import opened Errors
  import opened Handlers

  /** The frame the sampler sees: every row passed through the coreset
      transformation (`applymap`). */
  function Transformed(env: Env, rows: seq<Row>): (t: seq<Row>)
    ensures |t| == |rows|
    ensures forall i :: 0 <= i < |rows| ==> t[i] == env.transform(rows[i])
  {
    seq(|rows|, i requires 0 <= i < |rows| => env.transform(rows[i]))
  }

  /** `np.arange(n)`. */
  function Range(n: nat): (r: seq<nat>)
    ensures |r| == n
    ensures forall i :: 0 <= i < n ==> r[i] == i
  {
    seq(n, i requires 0 <= i < n => i)
  }

  /** `chosen_loc`: all positions of a chunk shorter than the chunk size,
      otherwise what the sampler returns for target size `sampleSize(n)`. */
  function ChosenPositions(env: Env, rows: seq<Row>): (pos: seq<nat>)
    ensures |rows| < env.chunkSize ==> |pos| == |rows| && forall i :: 0 <= i < |pos| ==> pos[i] == i
    ensures |rows| >= env.chunkSize ==>
      pos == env.coreset(Transformed(env, rows), env.sampleSize(|rows|))
  {
    if |rows| >= env.chunkSize then env.coreset(Transformed(env, rows), env.sampleSize(|rows|))
    else Range(|rows|)
  }

  /** Every position lies inside the chunk. */
  predicate InBounds(rows: seq<Row>, pos: seq<nat>)
  {
    forall i :: 0 <= i < |pos| ==> pos[i] < |rows|
  }

  /** `iloc[pos]`: the rows at the given positions, in the given order; a
      position past the end raises `PositionsOutOfBounds`. */
  function SubFrame(rows: seq<Row>, pos: seq<nat>): (r: Result<seq<Row>>)
    ensures r.Ok? <==> InBounds(rows, pos)
    ensures r.Err? ==> r.error == PositionsOutOfBounds
    ensures r.Ok? ==> |r.value| == |pos| && forall i :: 0 <= i < |pos| ==> r.value[i] == rows[pos[i]]
  {
    if InBounds(rows, pos) then Ok(seq(|pos|, i requires 0 <= i < |pos| => rows[pos[i]]))
    else Err(PositionsOutOfBounds)
  }

  /** The rows compared for one chunk: `mysql_df.iloc[chosen_loc]`. */
  function Sample(env: Env, rows: seq<Row>): (r: Result<seq<Row>>)
    ensures |rows| < env.chunkSize ==> r.Ok?
    ensures r.Ok? ==> forall i :: 0 <= i < |r.value| ==> r.value[i] in rows
    ensures r.Err? ==> r.error == PositionsOutOfBounds
  {
    SubFrame(rows, ChosenPositions(env, rows))
  }

  /** A chunk shorter than the chunk size bypasses the sampler and is
      compared in full: the sample is the chunk itself. */
  lemma SmallChunkSampledInFull(env: Env, rows: seq<Row>)
    requires |rows| < env.chunkSize
    ensures Sample(env, rows) == Ok(rows)
  {
    var r := Sample(env, rows);
    assert r.Ok?;
    assert r.value == rows;
  }

  /** A chunk of at least the chunk size is sampled: every compared row is
      the chunk's row at a position the sampler returned for the target size
      `sampleSize(n)`, and there are exactly as many as positions. */
  lemma LargeChunkDrawsFromSampler(env: Env, rows: seq<Row>)
    requires |rows| >= env.chunkSize
    ensures var pos := env.coreset(Transformed(env, rows), env.sampleSize(|rows|));
      var r := Sample(env, rows);
      (r.Ok? <==> InBounds(rows, pos)) &&
      (r.Ok? ==> |r.value| == |pos| && forall i :: 0 <= i < |pos| ==> r.value[i] == rows[pos[i]])
  {
  }
}

=== FILE: validate_props.dfy ===
/** Properties of the validation task: what one chunk and one table do to
    the cache, and how the table loop isolates a flagged table from the
    tables after it. */
module ValidateProps {
  import opened Errors
  import opened FileNames
  import opened MismatchCache
  import opened Handlers
  import opened Sampling
  import opened ValidateTask

  /** A chunk of at least the chunk size whose sampler positions lie inside
      it is compared through those positions: the documents are fetched for
      the indexes of the rows at the positions, in position order, and the
      validator compares exactly those rows with the fetched documents. A
      failing fetch escapes unchanged. */
  lemma LargeChunkComparesSampledRows(env: Env, ctx: RunContext, table: string, pk: seq<string>, rows: seq<Row>)
    requires |rows| >= env.chunkSize
    requires InBounds(rows, env.coreset(Transformed(env, rows), env.sampleSize(|rows|)))
    ensures var pos := env.coreset(Transformed(env, rows), env.sampleSize(|rows|));
      var sample := seq(|pos|, i requires 0 <= i < |pos| => rows[pos[i]]);
      var query := seq(|pos|, i requires 0 <= i < |pos| => rows[pos[i]].index);
      var target := env.fetchTarget(ctx.db, table, pk, query);
      ChunkFalseIndexes(env, ctx, table, pk, rows) ==
        if target.Err? then Err(target.error) else env.findFalseIndexes(sample, target.value)
  {
    var pos := env.coreset(Transformed(env, rows), env.sampleSize(|rows|));
    var sample := seq(|pos|, i requires 0 <= i < |pos| => rows[pos[i]]);
    LargeChunkDrawsFromSampler(env, rows);
    assert Sample(env, rows) == Ok(sample);
    assert Indexes(sample) == seq(|pos|, i requires 0 <= i < |pos| => rows[pos[i]].index);
  }

  /** An exception from the row-count check, or a table missing from the
      primary-key map, escapes the table before any chunk is read, and the
      cache is left as it was. */
  lemma TableEarlyFailureEscapes(env: Env, ctx: RunContext, table: string, cache: FalseCache)
    ensures env.compareTotalRows(ctx.db, table).Raised? ==>
      ValidateTable(env, ctx, table, cache) == TableRun(cache, env.compareTotalRows(ctx.db, table))
    ensures env.compareTotalRows(ctx.db, table).Passed? && table !in ctx.primaryKeys ==>
      ValidateTable(env, ctx, table, cache) == TableRun(cache, Raised(MissingKey(table)))
  {
  }

  /** The first chunk whose sampling, document fetch or comparison raises
      ends the table with that exception: the indexes of the chunks before
      it stay appended, and the flag test is never reached. */
  lemma TableChunkFailureEscapes(env: Env, ctx: RunContext, table: string, cache: FalseCache, k: nat)
    requires env.compareTotalRows(ctx.db, table).Passed? && table in ctx.primaryKeys
    requires var pk := ctx.primaryKeys[table];
      var chunks := env.sourceChunks(ctx.db, table, pk).chunks;
      k < |chunks| && ChunksSucceed(env, ctx, table, pk, chunks[..k]) &&
      ChunkFalseIndexes(env, ctx, table, pk, chunks[k]).Err?
    ensures var pk := ctx.primaryKeys[table];
      var chunks := env.sourceChunks(ctx.db, table, pk).chunks;
      ValidateTable(env, ctx, table, cache) ==
        TableRun(Append(cache, FalseKey(env, ctx), AllFalse(env, ctx, table, pk, chunks[..k])),
                 Raised(ChunkFalseIndexes(env, ctx, table, pk, chunks[k]).error))
  {
    var pk := ctx.primaryKeys[table];
    ChunkLoopStopsAtFirstFailure(env, ctx, table, pk, env.sourceChunks(ctx.db, table, pk).chunks, cache, k);
  }

  /** The first chunk that raises stops the chunk loop: the indexes of the
      chunks before it stay appended and its exception is the outcome. */
  lemma {:induction false} ChunkLoopStopsAtFirstFailure(env: Env, ctx: RunContext, table: string, pk: seq<string>,
                                                         chunks: seq<seq<Row>>, cache: FalseCache, k: nat)
    requires k < |chunks|
    requires ChunksSucceed(env, ctx, table, pk, chunks[..k])
    requires ChunkFalseIndexes(env, ctx, table, pk, chunks[k]).Err?
    ensures ValidateChunks(env, ctx, table, pk, chunks, cache) ==
      TableRun(Append(cache, FalseKey(env, ctx), AllFalse(env, ctx, table, pk, chunks[..k])),
               Raised(ChunkFalseIndexes(env, ctx, table, pk, chunks[k]).error))
    decreases k
  {
    var key := FalseKey(env, ctx);
    if k > 0 {
      assert chunks[..k][0] == chunks[0];
      var first := ChunkFalseIndexes(env, ctx, table, pk, chunks[0]).value;
      assert chunks[1..][..k - 1] == chunks[..k][1..];
      ChunksSucceedTail(env, ctx, table, pk, chunks[..k]);
      ChunkLoopStopsAtFirstFailure(env, ctx, table, pk, chunks[1..], Append(cache, key, first), k - 1);
      AppendAppend(cache, key, first, AllFalse(env, ctx, table, pk, chunks[1..][..k - 1]));
    }
  }

  /** The chunk loop's outcome does not depend on the cache. */
  lemma {:induction false} ChunkLoopOutcomeIgnoresCache(env: Env, ctx: RunContext, table: string, pk: seq<string>,
                                                         chunks: seq<seq<Row>>, c1: FalseCache, c2: FalseCache)
    ensures ValidateChunks(env, ctx, table, pk, chunks, c1).outcome ==
            ValidateChunks(env, ctx, table, pk, chunks, c2).outcome
    decreases |chunks|
  {
    if |chunks| > 0 {
      var key := FalseKey(env, ctx);
      match ChunkFalseIndexes(env, ctx, table, pk, chunks[0])
      case Err(e) =>
      case Ok(xs) =>
        ChunkLoopOutcomeIgnoresCache(env, ctx, table, pk, chunks[1..], Append(c1, key, xs), Append(c2, key, xs));
    }
  }

  /** A table whose row counts agree, whose chunks all stream and compare,
      and whose stream ends normally leaves the run's list at its initial
      length plus the false indexes of all its chunks, and is flagged
      exactly when that length is not zero, with the length in the
      description. */
  lemma TableFlaggedIffFalseIndexes(env: Env, ctx: RunContext, table: string, cache: FalseCache)
    requires env.compareTotalRows(ctx.db, table).Passed?
    requires table in ctx.primaryKeys
    requires var pk := ctx.primaryKeys[table];
      var stream := env.sourceChunks(ctx.db, table, pk);
      stream.end.Passed? && ChunksSucceed(env, ctx, table, pk, stream.chunks)
    ensures var pk := ctx.primaryKeys[table];
      var stream := env.sourceChunks(ctx.db, table, pk);
      var n := ListLength(cache, FalseKey(env, ctx)) + |AllFalse(env, ctx, table, pk, stream.chunks)|;
      var r := ValidateTable(env, ctx, table, cache);
      ListLength(r.cache, FalseKey(env, ctx)) == n &&
      r.outcome == (if n == 0 then Passed else Raised(ValidationFlowIncomplete(env.incorrectValue(n))))
  {
    var key := FalseKey(env, ctx);
    var pk := ctx.primaryKeys[table];
    var stream := env.sourceChunks(ctx.db, table, pk);
    var chunkRun := ValidateChunks(env, ctx, table, pk, stream.chunks, cache);
    assert chunkRun.outcome.Passed?;
    assert Get(chunkRun.cache, key) == Get(cache, key) + AllFalse(env, ctx, table, pk, stream.chunks);
  }

  /** The outcome of a table's pass depends on the cache only through the
      list under the run's key. */
  lemma TableOutcomeDependsOnlyOnKey(env: Env, ctx: RunContext, table: string, c1: FalseCache, c2: FalseCache)
    requires Get(c1, FalseKey(env, ctx)) == Get(c2, FalseKey(env, ctx))
    ensures ValidateTable(env, ctx, table, c1).outcome == ValidateTable(env, ctx, table, c2).outcome
    ensures Get(ValidateTable(env, ctx, table, c1).cache, FalseKey(env, ctx)) ==
            Get(ValidateTable(env, ctx, table, c2).cache, FalseKey(env, ctx))
  {
    if env.compareTotalRows(ctx.db, table).Passed? && table in ctx.primaryKeys {
      var pk := ctx.primaryKeys[table];
      var stream := env.sourceChunks(ctx.db, table, pk);
      ChunkLoopOutcomeIgnoresCache(env, ctx, table, pk, stream.chunks, c1, c2);
      ChunkLoopKeyDependsOnlyOnKey(env, ctx, table, pk, stream.chunks, c1, c2);
    }
  }

  /** The run's list after the chunk loop depends on the cache only through
      the list before it. */
  lemma {:induction false} ChunkLoopKeyDependsOnlyOnKey(env: Env, ctx: RunContext, table: string, pk: seq<string>,
                                                         chunks: seq<seq<Row>>, c1: FalseCache, c2: FalseCache)
    requires Get(c1, FalseKey(env, ctx)) == Get(c2, FalseKey(env, ctx))
    ensures Get(ValidateChunks(env, ctx, table, pk, chunks, c1).cache, FalseKey(env, ctx)) ==
            Get(ValidateChunks(env, ctx, table, pk, chunks, c2).cache, FalseKey(env, ctx))
    decreases |chunks|
  {
    if |chunks| > 0 {
      var key := FalseKey(env, ctx);
      match ChunkFalseIndexes(env, ctx, table, pk, chunks[0])
      case Err(e) =>
      case Ok(xs) =>
        ChunkLoopKeyDependsOnlyOnKey(env, ctx, table, pk, chunks[1..], Append(c1, key, xs), Append(c2, key, xs));
    }
  }

  /** The verdict of a table on its own: its pass against an empty cache. */
  function Verdict(env: Env, ctx: RunContext, table: string): Outcome
  {
    ValidateTable(env, ctx, table, map[]).outcome
  }

  /** What one iteration does, starting from a cache with nothing under the
      run's prefix: a passing table leaves the cache as it was, a flagged
      table adds one log entry and leaves the prefix clear, and any other
      exception ends the loop. The table's verdict alone decides which. */
  lemma StepOnCleanCache(env: Env, ctx: RunContext, table: string, s: LoopState)
    requires s.raised.None? && Clean(s.cache, ctx.prefix)
    ensures var s' := Step(env, ctx, table, s);
      match Verdict(env, ctx, table)
      case Passed => s' == LoopState(s.cache, s.log, s.visited + [table], None)
      case Raised(e) =>
        if IsFlowSignal(e) then
          s'.log == s.log + [LogEntry(ctx.resourceId, ctx.packageId, ctx.db, table, e.description)] &&
          s'.visited == s.visited + [table] && s'.raised.None? && Clean(s'.cache, ctx.prefix)
        else
          s'.log == s.log && s'.visited == s.visited + [table] && s'.raised == Some(e)
  {
    var key := FalseKey(env, ctx);
    assert Get(s.cache, key) == [];
    TableOutcomeDependsOnlyOnKey(env, ctx, table, s.cache, map[]);
    var r := ValidateTable(env, ctx, table, s.cache);
    if r.outcome.Passed? {
      assert Get(r.cache, key) == [];
      assert r.cache == Append(s.cache, key, []);
    }
  }

  /** The verdicts of a table list, each table judged on its own. */
  function VerdictsOf(env: Env, ctx: RunContext, tables: seq<string>): (vs: seq<Outcome>)
    ensures |vs| == |tables|
    ensures forall i :: 0 <= i < |tables| ==> vs[i] == Verdict(env, ctx, tables[i])
  {
    seq(|tables|, i requires 0 <= i < |tables| => Verdict(env, ctx, tables[i]))
  }

  /** The loop's log, visits and escaping exception as the tables' separate
      verdicts determine them, with no cache threaded through. */
  datatype Verdicts = Verdicts(log: seq<LogEntry>, visited: seq<string>, raised: Option<Error>)

  function Expected(ctx: RunContext, tables: seq<string>, verdicts: seq<Outcome>): Verdicts
    requires |verdicts| == |tables|
    decreases |tables|
  {
    if |tables| == 0 then Verdicts([], [], None)
    else
      var t := tables[0];
      match verdicts[0]
      case Passed =>
        var rest := Expected(ctx, tables[1..], verdicts[1..]);
        Verdicts(rest.log, [t] + rest.visited, rest.raised)
      case Raised(e) =>
        if IsFlowSignal(e) then
          var rest := Expected(ctx, tables[1..], verdicts[1..]);
          Verdicts([LogEntry(ctx.resourceId, ctx.packageId, ctx.db, t, e.description)] + rest.log,
                   [t] + rest.visited, rest.raised)
        else Verdicts([], [t], Some(e))
  }

  /** Partial-failure isolation: from a cache with nothing under the run's
      prefix, the loop logs exactly one entry per flagged table, in table
      order, visits every table up to the first other exception, lets that
      exception escape, and otherwise ends with the prefix clear. Each
      table is judged as if it ran alone. */
  lemma {:induction false} LoopMatchesVerdicts(env: Env, ctx: RunContext, tables: seq<string>, s: LoopState)
    requires s.raised.None? && Clean(s.cache, ctx.prefix)
    ensures var r := Loop(env, ctx, tables, s);
      var x := Expected(ctx, tables, VerdictsOf(env, ctx, tables));
      r.log == s.log + x.log && r.visited == s.visited + x.visited && r.raised == x.raised &&
      (r.raised.None? ==> Clean(r.cache, ctx.prefix))
    decreases |tables|
  {
    var vs := VerdictsOf(env, ctx, tables);
    if |tables| > 0 {
      var t := tables[0];
      StepOnCleanCache(env, ctx, t, s);
      var next := Step(env, ctx, t, s);
      assert Loop(env, ctx, tables, s) == Loop(env, ctx, tables[1..], next);
      assert vs[1..] == VerdictsOf(env, ctx, tables[1..]);
      if next.raised.None? {
        LoopMatchesVerdicts(env, ctx, tables[1..], next);
        var y := Expected(ctx, tables[1..], vs[1..]);
        ConcatAssoc(s.visited, [t], y.visited);
        if vs[0].Raised? {
          ExpectedFlaggedHead(ctx, tables, vs);
          ConcatAssoc(s.log, [LogEntry(ctx.resourceId, ctx.packageId, ctx.db, t, vs[0].error.description)], y.log);
        }
      } else {
        assert Expected(ctx, tables, vs) == Verdicts([], [t], Some(vs[0].error));
      }
    }
  }

  /** `Expected` after a flagged first table: its entry, then the rest. */
  lemma ExpectedFlaggedHead(ctx: RunContext, tables: seq<string>, vs: seq<Outcome>)
    requires |tables| > 0 && |vs| == |tables| && vs[0].Raised? && IsFlowSignal(vs[0].error)
    ensures var x := Expected(ctx, tables, vs);
      var y := Expected(ctx, tables[1..], vs[1..]);
      x.log == [LogEntry(ctx.resourceId, ctx.packageId, ctx.db, tables[0], vs[0].error.description)] + y.log &&
      x.visited == [tables[0]] + y.visited && x.raised == y.raised
  {
  }

  lemma ExpectedPassedHead(ctx: RunContext, tables: seq<string>, vs: seq<Outcome>)
    requires |tables| > 0 && |vs| == |tables| && vs[0].Passed?
    ensures var x := Expected(ctx, tables, vs);
      var y := Expected(ctx, tables[1..], vs[1..]);
      x.log == y.log && x.visited == [tables[0]] + y.visited && x.raised == y.raised
  {
  }

  lemma ConcatAssoc<T>(a: seq<T>, b: seq<T>, c: seq<T>)
    ensures a + b + c == a + (b + c)
  {
  }

  /** Running the loop over `a + b` is running it over `a`, then over `b`
      from the state `a` left. */
  lemma {:induction false} LoopComposes(env: Env, ctx: RunContext, a: seq<string>, b: seq<string>, s: LoopState)
    ensures Loop(env, ctx, a + b, s) == Loop(env, ctx, b, Loop(env, ctx, a, s))
    decreases |a|
  {
    if |a| > 0 && s.raised.None? {
      assert (a + b)[0] == a[0];
      assert (a + b)[1..] == a[1..] + b;
      LoopComposes(env, ctx, a[1..], b, Step(env, ctx, a[0], s));
    } else if |a| == 0 {
      assert a + b == b;
    }
  }

  /** Starting from a cache with nothing under the run's prefix, the cache
      holds nothing under it at the start of every iteration: the state
      before table `i` is the loop run over the first `i` tables. */
  lemma CleanAtEveryIteration(env: Env, ctx: RunContext, tables: seq<string>, s: LoopState, i: nat)
    requires s.raised.None? && Clean(s.cache, ctx.prefix)
    requires i <= |tables|
    ensures Loop(env, ctx, tables, s) == Loop(env, ctx, tables[i..], Loop(env, ctx, tables[..i], s))
    ensures var before := Loop(env, ctx, tables[..i], s);
      before.raised.None? ==> Clean(before.cache, ctx.prefix)
  {
    assert tables == tables[..i] + tables[i..];
    LoopComposes(env, ctx, tables[..i], tables[i..], s);
    LoopMatchesVerdicts(env, ctx, tables[..i], s);
  }

  /** `Expected` when no table raises anything but the flow signal: every
      table is visited, in order, nothing escapes, and there is one log
      entry per flagged table. */
  lemma {:induction false} ExpectedAllRecoverable(ctx: RunContext, tables: seq<string>, vs: seq<Outcome>)
    requires |vs| == |tables|
    requires forall i :: 0 <= i < |vs| ==> vs[i].Passed? || IsFlowSignal(vs[i].error)
    ensures var x := Expected(ctx, tables, vs);
      x.visited == tables && x.raised.None? && |x.log| == FlaggedCount(vs)
    decreases |tables|
  {
    if |tables| > 0 {
      ExpectedAllRecoverable(ctx, tables[1..], vs[1..]);
      assert tables == [tables[0]] + tables[1..];
    }
  }

  /** The number of flagged verdicts. */
  function FlaggedCount(vs: seq<Outcome>): nat
    decreases |vs|
  {
    if |vs| == 0 then 0 else (if vs[0].Raised? then 1 else 0) + FlaggedCount(vs[1..])
  }

  /** `Expected` when table `k` is the first to raise something other than
      the flow signal: the tables before it and it are visited, its
      exception escapes unchanged, no later table is visited, and the log
      holds the entries of the earlier flagged tables only. */
  lemma {:induction false} ExpectedStopsAtFirstEscape(ctx: RunContext, tables: seq<string>, vs: seq<Outcome>, k: nat)
    requires |vs| == |tables| && k < |tables|
    requires forall i :: 0 <= i < k ==> vs[i].Passed? || IsFlowSignal(vs[i].error)
    requires vs[k].Raised? && !IsFlowSignal(vs[k].error)
    ensures var x := Expected(ctx, tables, vs);
      x.visited == tables[..k + 1] && x.raised == Some(vs[k].error) &&
      x.log == Expected(ctx, tables[..k], vs[..k]).log
    decreases k
  {
    if k > 0 {
      ExpectedStopsAtFirstEscape(ctx, tables[1..], vs[1..], k - 1);
      assert tables[1..][..k] == tables[..k + 1][1..];
      assert tables[1..][..k - 1] == tables[..k][1..];
      assert vs[1..][..k - 1] == vs[..k][1..];
      assert tables[..k + 1] == [tables[0]] + tables[..k + 1][1..];
    }
  }

  /** The cache after a table's pass differs from the one before only under
      the run's prefix. */
  lemma TableKeepsOtherNamespaces(env: Env, ctx: RunContext, table: string, cache: FalseCache)
    ensures SameOutside(ValidateTable(env, ctx, table, cache).cache, cache, ctx.prefix)
  {
    var key := FalseKey(env, ctx);
    var r := ValidateTable(env, ctx, table, cache);
    assert r.cache == Append(cache, key, Get(r.cache, key)[|Get(cache, key)|..]);
  }

  /** The table loop touches no key outside the run's prefix. */
  lemma {:induction false} LoopKeepsOtherNamespaces(env: Env, ctx: RunContext, tables: seq<string>, s: LoopState)
    ensures SameOutside(Loop(env, ctx, tables, s).cache, s.cache, ctx.prefix)
    decreases |tables|
  {
    if |tables| > 0 && s.raised.None? {
      var next := Step(env, ctx, tables[0], s);
      var r := ValidateTable(env, ctx, tables[0], s.cache);
      TableKeepsOtherNamespaces(env, ctx, tables[0], s.cache);
      SameOutsideTransitive(ClearPrefix(r.cache, ctx.prefix), r.cache, s.cache, ctx.prefix);
      assert SameOutside(next.cache, s.cache, ctx.prefix);
      LoopKeepsOtherNamespaces(env, ctx, tables[1..], next);
      SameOutsideTransitive(Loop(env, ctx, tables[1..], next).cache, next.cache, s.cache, ctx.prefix);
    }
  }

  /** `validate_data` changes the cache only under its own prefix, whether
      it completes or an exception escapes. */
  lemma ValidateDataKeepsOtherNamespaces(env: Env, resourceId: string, fileName: string, packageId: string,
                                         cache: FalseCache, log: seq<LogEntry>)
    ensures SameOutside(ValidateData(env, resourceId, fileName, packageId, cache, log).cache,
                        cache, CachePrefix(resourceId, packageId))
  {
    var db := DbName(fileName);
    var prefix := CachePrefix(resourceId, packageId);
    if env.primaryKeyMap(db, prefix).Ok? && env.tableNames(db, prefix).Ok? {
      var ctx := RunContext(resourceId, packageId, db, prefix, env.primaryKeyMap(db, prefix).value);
      var tables := env.tableNames(db, prefix).value;
      var s0 := LoopState(cache, log, [], None);
      LoopKeepsOtherNamespaces(env, ctx, tables, s0);
      var s := Loop(env, ctx, tables, s0);
      SameOutsideTransitive(ClearPrefix(s.cache, prefix), s.cache, cache, prefix);
    }
  }

  /** `validate_data` started with nothing under its prefix: the log grows
      by the isolated verdicts' entries, the visits and the escaping
      exception are theirs, and a completed run leaves the prefix clear. */
  lemma ValidateDataOnCleanCache(env: Env, resourceId: string, fileName: string, packageId: string,
                                 cache: FalseCache, log: seq<LogEntry>)
    requires env.primaryKeyMap(DbName(fileName), CachePrefix(resourceId, packageId)).Ok?
    requires env.tableNames(DbName(fileName), CachePrefix(resourceId, packageId)).Ok?
    requires Clean(cache, CachePrefix(resourceId, packageId))
    ensures var db := DbName(fileName);
      var prefix := CachePrefix(resourceId, packageId);
      var ctx := RunContext(resourceId, packageId, db, prefix, env.primaryKeyMap(db, prefix).value);
      var tables := env.tableNames(db, prefix).value;
      var x := Expected(ctx, tables, VerdictsOf(env, ctx, tables));
      var r := ValidateData(env, resourceId, fileName, packageId, cache, log);
      r.log == log + x.log && r.visited == x.visited &&
      r.outcome == (if x.raised.None? then Passed else Raised(x.raised.value))
  {
    var db := DbName(fileName);
    var prefix := CachePrefix(resourceId, packageId);
    var ctx := RunContext(resourceId, packageId, db, prefix, env.primaryKeyMap(db, prefix).value);
    var tables := env.tableNames(db, prefix).value;
    LoopMatchesVerdicts(env, ctx, tables, LoopState(cache, log, [], None));
  }

  /** The three-table scenario: the middle table is flagged, the first and
      last pass. All three are visited, exactly one entry is logged, for
      the middle table, and the run completes with the prefix clear. */
  lemma MiddleTableFlagIsolated(env: Env, resourceId: string, fileName: string, packageId: string,
                                cache: FalseCache, log: seq<LogEntry>, description: string)
    requires var db := DbName(fileName);
      var prefix := CachePrefix(resourceId, packageId);
      && env.primaryKeyMap(db, prefix).Ok?
      && env.tableNames(db, prefix).Ok?
      && |env.tableNames(db, prefix).value| == 3
      && var ctx := RunContext(resourceId, packageId, db, prefix, env.primaryKeyMap(db, prefix).value);
      && var tables := env.tableNames(db, prefix).value;
      && Verdict(env, ctx, tables[0]) == Passed
      && Verdict(env, ctx, tables[1]) == Raised(ValidationFlowIncomplete(description))
      && Verdict(env, ctx, tables[2]) == Passed
    requires Clean(cache, CachePrefix(resourceId, packageId))
    ensures var db := DbName(fileName);
      var prefix := CachePrefix(resourceId, packageId);
      var tables := env.tableNames(db, prefix).value;
      var r := ValidateData(env, resourceId, fileName, packageId, cache, log);
      r.visited == tables && r.outcome == Passed && Clean(r.cache, prefix) &&
      r.log == log + [LogEntry(resourceId, packageId, db, tables[1], description)]
  {
    var db := DbName(fileName);
    var prefix := CachePrefix(resourceId, packageId);
    var ctx := RunContext(resourceId, packageId, db, prefix, env.primaryKeyMap(db, prefix).value);
    var tables := env.tableNames(db, prefix).value;
    var vs := VerdictsOf(env, ctx, tables);
    ExpectedMiddleFlag(ctx, tables, vs, description);
    ValidateDataOnCleanCache(env, resourceId, fileName, packageId, cache, log);
  }

  /** The reference run of three tables whose middle one alone is flagged. */
  lemma ExpectedMiddleFlag(ctx: RunContext, tables: seq<string>, vs: seq<Outcome>, description: string)
    requires |tables| == 3
    requires |vs| == 3 && vs[0].Passed? && vs[1] == Raised(ValidationFlowIncomplete(description)) && vs[2].Passed?
    ensures Expected(ctx, tables, vs) ==
      Verdicts([LogEntry(ctx.resourceId, ctx.packageId, ctx.db, tables[1], description)], tables, None)
  {
    var t1, v1 := tables[1..], vs[1..];
    var t2, v2 := t1[1..], v1[1..];
    assert t2[1..] == [] && v2[1..] == [];
    ExpectedPassedHead(ctx, t2, v2);
    ExpectedFlaggedHead(ctx, t1, v1);
    ExpectedPassedHead(ctx, tables, vs);
    assert tables == [tables[0]] + ([t1[0]] + [t2[0]]);
  }

  /** The cache is not cleared when a run starts: a table none of whose
      chunks mismatches, which passes on its own, is flagged all the same
      when an earlier run left entries under the run's key, and the
      description counts exactly those stale entries. */
  lemma StaleEntriesFlagTable(env: Env, ctx: RunContext, table: string, cache: FalseCache)
    requires ListLength(cache, FalseKey(env, ctx)) > 0
    requires env.compareTotalRows(ctx.db, table).Passed?
    requires table in ctx.primaryKeys
    requires var pk := ctx.primaryKeys[table];
      var stream := env.sourceChunks(ctx.db, table, pk);
      stream.end.Passed? && ChunksSucceed(env, ctx, table, pk, stream.chunks) &&
      AllFalse(env, ctx, table, pk, stream.chunks) == []
    ensures Verdict(env, ctx, table) == Passed
    ensures ValidateTable(env, ctx, table, cache).outcome ==
      Raised(ValidationFlowIncomplete(env.incorrectValue(ListLength(cache, FalseKey(env, ctx)))))
  {
    TableFlaggedIffFalseIndexes(env, ctx, table, cache);
    TableFlaggedIffFalseIndexes(env, ctx, table, map[]);
  }

  /** `validate_data` hands the cache it finds to its first table without
      clearing it: stale entries under the run's key flag a first table that
      passes on its own, and the first log entry of the run describes
      exactly those stale entries. */
  lemma ValidateDataFlagsStaleFirstTable(env: Env, resourceId: string, fileName: string, packageId: string,
                                         cache: FalseCache, log: seq<LogEntry>)
    requires env.primaryKeyMap(DbName(fileName), CachePrefix(resourceId, packageId)).Ok?
    requires env.tableNames(DbName(fileName), CachePrefix(resourceId, packageId)).Ok?
    requires var db := DbName(fileName);
      var prefix := CachePrefix(resourceId, packageId);
      var ctx := RunContext(resourceId, packageId, db, prefix, env.primaryKeyMap(db, prefix).value);
      var tables := env.tableNames(db, prefix).value;
      && |tables| > 0
      && ListLength(cache, FalseKey(env, ctx)) > 0
      && env.compareTotalRows(db, tables[0]).Passed?
      && tables[0] in ctx.primaryKeys
      && var pk := ctx.primaryKeys[tables[0]];
      && var stream := env.sourceChunks(db, tables[0], pk);
      && stream.end.Passed? && ChunksSucceed(env, ctx, tables[0], pk, stream.chunks)
      && AllFalse(env, ctx, tables[0], pk, stream.chunks) == []
    ensures var db := DbName(fileName);
      var prefix := CachePrefix(resourceId, packageId);
      var ctx := RunContext(resourceId, packageId, db, prefix, env.primaryKeyMap(db, prefix).value);
      var tables := env.tableNames(db, prefix).value;
      var r := ValidateData(env, resourceId, fileName, packageId, cache, log);
      |r.log| > |log| &&
      r.log[|log|] == LogEntry(resourceId, packageId, db, tables[0], env.incorrectValue(ListLength(cache, FalseKey(env, ctx))))
  {
    var db := DbName(fileName);
    var prefix := CachePrefix(resourceId, packageId);
    var ctx := RunContext(resourceId, packageId, db, prefix, env.primaryKeyMap(db, prefix).value);
    var tables := env.tableNames(db, prefix).value;
    var s := LoopState(cache, log, [], None);
    StaleEntriesFlagTable(env, ctx, tables[0], cache);
    var next := Step(env, ctx, tables[0], s);
    var entry := LogEntry(resourceId, packageId, db, tables[0], env.incorrectValue(ListLength(cache, FalseKey(env, ctx))));
    assert next.log == log + [entry];
    assert Loop(env, ctx, tables, s) == Loop(env, ctx, tables[1..], next);
  }

  /** The entries a table leaves under the run's key when it runs alone. */
  function OwnEntries(env: Env, ctx: RunContext, table: string): seq<RowIndex>
  {
    Get(ValidateTable(env, ctx, table, map[]).cache, FalseKey(env, ctx))
  }

  /** From a cache with nothing under the run's prefix, when table `k` is the
      first to raise something other than the flow signal, the loop ends
      with that exception and the entries that table appended are still
      under the run's key: nothing clears them. */
  lemma LoopEscapeKeepsEntries(env: Env, ctx: RunContext, tables: seq<string>, s: LoopState, k: nat)
    requires s.raised.None? && Clean(s.cache, ctx.prefix)
    requires k < |tables|
    requires forall i :: 0 <= i < k ==>
      Verdict(env, ctx, tables[i]).Passed? || IsFlowSignal(Verdict(env, ctx, tables[i]).error)
    requires Verdict(env, ctx, tables[k]).Raised? && !IsFlowSignal(Verdict(env, ctx, tables[k]).error)
    ensures var r := Loop(env, ctx, tables, s);
      r.raised == Some(Verdict(env, ctx, tables[k]).error) &&
      Get(r.cache, FalseKey(env, ctx)) == OwnEntries(env, ctx, tables[k])
  {
    var before := Loop(env, ctx, tables[..k], s);
    CleanAtEveryIteration(env, ctx, tables, s, k);
    assert before.raised.None? by {
      var vs := VerdictsOf(env, ctx, tables[..k]);
      assert forall i :: 0 <= i < k ==> vs[i] == Verdict(env, ctx, tables[i]);
      LoopMatchesVerdicts(env, ctx, tables[..k], s);
      ExpectedAllRecoverable(ctx, tables[..k], vs);
    }
    var key := FalseKey(env, ctx);
    assert Get(before.cache, key) == [];
    TableOutcomeDependsOnlyOnKey(env, ctx, tables[k], before.cache, map[]);
    var next := Step(env, ctx, tables[k], before);
    assert tables[k..][0] == tables[k];
    assert Loop(env, ctx, tables[k..], before) == Loop(env, ctx, tables[k..][1..], next);
  }

  /** `validate_data` from a cache with nothing under its prefix, when table
      `k` is the first to raise something other than the flow signal: that
      exception escapes and the final clear is skipped, so the entries the
      table appended stay under the run's key. */
  lemma ValidateDataEscapeSkipsFinalClear(env: Env, resourceId: string, fileName: string, packageId: string,
                                          cache: FalseCache, log: seq<LogEntry>, k: nat)
    requires env.primaryKeyMap(DbName(fileName), CachePrefix(resourceId, packageId)).Ok?
    requires env.tableNames(DbName(fileName), CachePrefix(resourceId, packageId)).Ok?
    requires Clean(cache, CachePrefix(resourceId, packageId))
    requires var db := DbName(fileName);
      var prefix := CachePrefix(resourceId, packageId);
      var ctx := RunContext(resourceId, packageId, db, prefix, env.primaryKeyMap(db, prefix).value);
      var tables := env.tableNames(db, prefix).value;
      && k < |tables|
      && (forall i :: 0 <= i < k ==>
            Verdict(env, ctx, tables[i]).Passed? || IsFlowSignal(Verdict(env, ctx, tables[i]).error))
      && Verdict(env, ctx, tables[k]).Raised? && !IsFlowSignal(Verdict(env, ctx, tables[k]).error)
    ensures var db := DbName(fileName);
      var prefix := CachePrefix(resourceId, packageId);
      var ctx := RunContext(resourceId, packageId, db, prefix, env.primaryKeyMap(db, prefix).value);
      var tables := env.tableNames(db, prefix).value;
      var r := ValidateData(env, resourceId, fileName, packageId, cache, log);
      r.outcome == Verdict(env, ctx, tables[k]) &&
      Get(r.cache, FalseKey(env, ctx)) == OwnEntries(env, ctx, tables[k])
  {
    var db := DbName(fileName);
    var prefix := CachePrefix(resourceId, packageId);
    var ctx := RunContext(resourceId, packageId, db, prefix, env.primaryKeyMap(db, prefix).value);
    var tables := env.tableNames(db, prefix).value;
    LoopEscapeKeepsEntries(env, ctx, tables, LoopState(cache, log, [], None), k);
  }

  /** Whatever a table's stream raises after chunks that all compare, the
      flow signal included, is the table's outcome, with every chunk's
      indexes appended under the run's key. */
  lemma TableStreamEndEscapes(env: Env, ctx: RunContext, table: string, cache: FalseCache)
    requires env.compareTotalRows(ctx.db, table).Passed?
    requires table in ctx.primaryKeys
    requires var pk := ctx.primaryKeys[table];
      var stream := env.sourceChunks(ctx.db, table, pk);
      stream.end.Raised? && ChunksSucceed(env, ctx, table, pk, stream.chunks)
    ensures var pk := ctx.primaryKeys[table];
      var stream := env.sourceChunks(ctx.db, table, pk);
      ValidateTable(env, ctx, table, cache) ==
        TableRun(Append(cache, FalseKey(env, ctx), AllFalse(env, ctx, table, pk, stream.chunks)), stream.end)
  {
  }

  /** An exception a table's stream raises after its chunks ends the run
      with that table's appended indexes still in the cache: nothing clears
      them, and a later run with the same prefix will see them. */
  lemma EscapeLeavesAppendedEntries(env: Env, ctx: RunContext, table: string, s: LoopState)
    requires s.raised.None?
    requires env.compareTotalRows(ctx.db, table).Passed?
    requires table in ctx.primaryKeys
    requires var pk := ctx.primaryKeys[table];
      var stream := env.sourceChunks(ctx.db, table, pk);
      stream.end.Raised? && !IsFlowSignal(stream.end.error) && ChunksSucceed(env, ctx, table, pk, stream.chunks)
    ensures var pk := ctx.primaryKeys[table];
      var stream := env.sourceChunks(ctx.db, table, pk);
      var s' := Step(env, ctx, table, s);
      s'.raised == Some(stream.end.error) && s'.log == s.log &&
      s'.cache == Append(s.cache, FalseKey(env, ctx), AllFalse(env, ctx, table, pk, stream.chunks))
  {
  }
}

=== FILE: validate_task.dfy ===
/** The `validate_data` task: for every table, check the row counts, then
    compare a sample of every chunk against the document store, collecting
    the mismatched row indexes in the cache; a table whose collected list is
    not empty is flagged, logged, and the run's cache namespace cleared
    before the next table. */
module ValidateTask {
  import opened Errors
  import opened FileNames
  import opened MismatchCache
  import opened Handlers
  import opened Sampling

  /** The mismatch cache of a run holds lists of row indexes. */
  type FalseCache = Cache<RowIndex>

  /** One record of the validator log (`validator_logs` without the
      generated `log_id` and `created_time`). */
  datatype LogEntry = LogEntry(resourceId: string, packageId: string, database: string, table: string, description: string)

  /** What is fixed for a whole run once the schema lookups have succeeded. */
  datatype RunContext = RunContext(resourceId: string, packageId: string, db: string, prefix: string, primaryKeys: PrimaryKeyMap)

  /** `cache_prefix + REDIS_VALIDATOR_FALSE_INDEXES`: one key per run, the
      same for every table. */
  function FalseKey(env: Env, ctx: RunContext): (key: string)
    ensures ctx.prefix <= key
  {
    ctx.prefix + env.falseIndexesKey
  }

  /** The primary-key index of every sampled row, which is all the document
      store query is built from. */
  function Indexes(rows: seq<Row>): (ix: seq<RowIndex>)
    ensures |ix| == |rows| && forall i :: 0 <= i < |rows| ==> ix[i] == rows[i].index
  {
    seq(|rows|, i requires 0 <= i < |rows| => rows[i].index)
  }

  /** Fetch the matching documents for a sample and let the validator
      report the indexes whose rows differ. */
  function CompareSample(env: Env, ctx: RunContext, table: string, pk: seq<string>, sample: seq<Row>): Result<seq<RowIndex>>
  {
    match env.fetchTarget(ctx.db, table, pk, Indexes(sample))
    case Err(e) => Err(e)
    case Ok(target) => env.findFalseIndexes(sample, target)
  }

  /** The false indexes of one chunk: sample it, then compare the sample. */
  function ChunkFalseIndexes(env: Env, ctx: RunContext, table: string, pk: seq<string>, rows: seq<Row>): (r: Result<seq<RowIndex>>)
    ensures |rows| < env.chunkSize ==> r == CompareSample(env, ctx, table, pk, rows)
    ensures Sample(env, rows).Err? ==> r == Err(PositionsOutOfBounds)
  {
    assert |rows| < env.chunkSize ==> Sample(env, rows) == Ok(rows) by {
      if |rows| < env.chunkSize { SmallChunkSampledInFull(env, rows); }
    }
    match Sample(env, rows)
    case Err(e) => Err(e)
    case Ok(sample) => CompareSample(env, ctx, table, pk, sample)
  }

  /** Every chunk samples and compares without an exception. */
  predicate ChunksSucceed(env: Env, ctx: RunContext, table: string, pk: seq<string>, chunks: seq<seq<Row>>)
  {
    forall i :: 0 <= i < |chunks| ==> ChunkFalseIndexes(env, ctx, table, pk, chunks[i]).Ok?
  }

  /** The false indexes of all chunks, chunk after chunk. */
  function AllFalse(env: Env, ctx: RunContext, table: string, pk: seq<string>, chunks: seq<seq<Row>>): seq<RowIndex>
    requires ChunksSucceed(env, ctx, table, pk, chunks)
    decreases |chunks|
  {
    if |chunks| == 0 then []
    else ChunkFalseIndexes(env, ctx, table, pk, chunks[0]).value + AllFalse(env, ctx, table, pk, chunks[1..])
  }

  lemma ChunksSucceedTail(env: Env, ctx: RunContext, table: string, pk: seq<string>, chunks: seq<seq<Row>>)
    requires |chunks| > 0 && ChunksSucceed(env, ctx, table, pk, chunks)
    ensures ChunksSucceed(env, ctx, table, pk, chunks[1..])
  {
    forall i | 0 <= i < |chunks| - 1
      ensures ChunkFalseIndexes(env, ctx, table, pk, chunks[1..][i]).Ok?
    {
      assert chunks[1..][i] == chunks[i + 1];
    }
  }

  /** All chunks succeed exactly when the first one does and the rest do. */
  lemma ChunksSucceedCons(env: Env, ctx: RunContext, table: string, pk: seq<string>, chunks: seq<seq<Row>>)
    requires |chunks| > 0
    ensures ChunksSucceed(env, ctx, table, pk, chunks) <==>
      ChunkFalseIndexes(env, ctx, table, pk, chunks[0]).Ok? && ChunksSucceed(env, ctx, table, pk, chunks[1..])
  {
    if ChunkFalseIndexes(env, ctx, table, pk, chunks[0]).Ok? && ChunksSucceed(env, ctx, table, pk, chunks[1..]) {
      forall i | 1 <= i < |chunks|
        ensures ChunkFalseIndexes(env, ctx, table, pk, chunks[i]).Ok?
      {
        assert chunks[i] == chunks[1..][i - 1];
      }
    }
    if ChunksSucceed(env, ctx, table, pk, chunks) {
      ChunksSucceedTail(env, ctx, table, pk, chunks);
    }
  }

  /** The cache after a table's pass, and whether the pass raised. */
  datatype TableRun = TableRun(cache: FalseCache, outcome: Outcome)

  /** The cache only grew by appends to the run's false-index key. */
  ghost predicate OnlyAppended(env: Env, ctx: RunContext, before: FalseCache, after: FalseCache)
  {
    var key := FalseKey(env, ctx);
    Get(before, key) <= Get(after, key) &&
    after == Append(before, key, Get(after, key)[|Get(before, key)|..])
  }

  /** The chunk loop: a fresh accumulator per chunk, whose indexes are
      appended to the run's key; the first exception stops the loop with
      the appends made so far kept. */
  function ValidateChunks(env: Env, ctx: RunContext, table: string, pk: seq<string>, chunks: seq<seq<Row>>, cache: FalseCache): (r: TableRun)
    ensures OnlyAppended(env, ctx, cache, r.cache)
    ensures r.outcome.Passed? <==> ChunksSucceed(env, ctx, table, pk, chunks)
    ensures ChunksSucceed(env, ctx, table, pk, chunks) ==>
      r.cache == Append(cache, FalseKey(env, ctx), AllFalse(env, ctx, table, pk, chunks))
    decreases |chunks|
  {
    if |chunks| == 0 then TableRun(cache, Passed)
    else
      ChunksSucceedCons(env, ctx, table, pk, chunks);
      match ChunkFalseIndexes(env, ctx, table, pk, chunks[0])
      case Err(e) => TableRun(cache, Raised(e))
      case Ok(falseIndexes) =>
        var key := FalseKey(env, ctx);
        var next := Append(cache, key, falseIndexes);
        var r := ValidateChunks(env, ctx, table, pk, chunks[1..], next);
        AppendAppend(cache, key, falseIndexes, Get(r.cache, key)[|Get(next, key)|..]);
        assert Get(r.cache, key)[|Get(cache, key)|..] == falseIndexes + Get(r.cache, key)[|Get(next, key)|..];
        if ChunksSucceed(env, ctx, table, pk, chunks) then
          ChunksSucceedTail(env, ctx, table, pk, chunks);
          AppendAppend(cache, key, falseIndexes, AllFalse(env, ctx, table, pk, chunks[1..]));
          r
        else r
  }

  /** One table's pass: the row-count check, the primary-key lookup, the
      chunk loop and the stream's own end, then the flag test on the length
      of the run's false-index list. */
  function ValidateTable(env: Env, ctx: RunContext, table: string, cache: FalseCache): (r: TableRun)
    ensures OnlyAppended(env, ctx, cache, r.cache)
    ensures r.outcome.Passed? ==> ListLength(r.cache, FalseKey(env, ctx)) == 0
  {
    match env.compareTotalRows(ctx.db, table)
    case Raised(e) => TableRun(cache, Raised(e))
    case Passed =>
      if table !in ctx.primaryKeys then TableRun(cache, Raised(MissingKey(table)))
      else
        var pk := ctx.primaryKeys[table];
        var stream := env.sourceChunks(ctx.db, table, pk);
        var r := ValidateChunks(env, ctx, table, pk, stream.chunks, cache);
        if r.outcome.Raised? then r
        else if stream.end.Raised? then TableRun(r.cache, stream.end)
        else
          var count := ListLength(r.cache, FalseKey(env, ctx));
          if count != 0 then TableRun(r.cache, Raised(ValidationFlowIncomplete(env.incorrectValue(count))))
          else TableRun(r.cache, Passed)
  }

  /** The state of the table loop: the cache, the validator log, the tables
      visited so far, and the exception that ended the loop, if any. */
  datatype LoopState = LoopState(cache: FalseCache, log: seq<LogEntry>, visited: seq<string>, raised: Option<Error>)

  /** One iteration: a passing table continues; a flagged table gets one
      log entry carrying the error's description, then the whole prefix is
      cleared and the loop continues; any other exception ends the loop. */
  function Step(env: Env, ctx: RunContext, table: string, s: LoopState): (s': LoopState)
    requires s.raised.None?
    ensures s'.visited == s.visited + [table]
    ensures s.log <= s'.log && |s'.log| <= |s.log| + 1
  {
    var r := ValidateTable(env, ctx, table, s.cache);
    match r.outcome
    case Passed => LoopState(r.cache, s.log, s.visited + [table], None)
    case Raised(e) =>
      if IsFlowSignal(e) then
        var entry := LogEntry(ctx.resourceId, ctx.packageId, ctx.db, table, e.description);
        LoopState(ClearPrefix(r.cache, ctx.prefix), s.log + [entry], s.visited + [table], None)
      else LoopState(r.cache, s.log, s.visited + [table], Some(e))
  }

  lemma AppendHead<T>(a: seq<T>, b: seq<T>)
    requires |b| > 0
    ensures a + [b[0]] + b[1..] == a + b
  {
  }

  lemma PrefixTransitive<T>(a: seq<T>, b: seq<T>, c: seq<T>)
    requires a <= b && b <= c
    ensures a <= c && forall i :: |a| <= i < |b| ==> b[i] == c[i]
  {
  }

  /** The table loop; once an exception escapes, nothing more happens. */
  function Loop(env: Env, ctx: RunContext, tables: seq<string>, s: LoopState): (r: LoopState)
    ensures s.log <= r.log
    ensures s.raised.Some? ==> r == s
    ensures r.raised.None? && s.raised.None? ==> r.visited == s.visited + tables
    decreases |tables|
  {
    if |tables| == 0 || s.raised.Some? then s
    else
      var next := Step(env, ctx, tables[0], s);
      AppendHead(s.visited, tables);
      var r := Loop(env, ctx, tables[1..], next);
      PrefixTransitive(s.log, next.log, r.log);
      r
  }

  /** The observable result of `validate_data`. */
  datatype ValidateRun = ValidateRun(cache: FalseCache, log: seq<LogEntry>, visited: seq<string>, outcome: Outcome)

  /** `validate_data(resource_id, sql_file_name, package_id)`, run against
      a cache and a log left by earlier runs. */
  function ValidateData(env: Env, resourceId: string, fileName: string, packageId: string,
                        cache: FalseCache, log: seq<LogEntry>): (r: ValidateRun)
    ensures log <= r.log
    ensures r.outcome.Passed? ==> Clean(r.cache, CachePrefix(resourceId, packageId))
    ensures var keys := env.primaryKeyMap(DbName(fileName), CachePrefix(resourceId, packageId));
      keys.Err? ==> r == ValidateRun(cache, log, [], Raised(keys.error))
    ensures var keys := env.primaryKeyMap(DbName(fileName), CachePrefix(resourceId, packageId));
      var names := env.tableNames(DbName(fileName), CachePrefix(resourceId, packageId));
      keys.Ok? && names.Err? ==> r == ValidateRun(cache, log, [], Raised(names.error))
  {
    var db := DbName(fileName);
    var prefix := CachePrefix(resourceId, packageId);
    match env.primaryKeyMap(db, prefix)
    case Err(e) => ValidateRun(cache, log, [], Raised(e))
    case Ok(primaryKeys) =>
      match env.tableNames(db, prefix)
      case Err(e) => ValidateRun(cache, log, [], Raised(e))
      case Ok(tables) =>
        var ctx := RunContext(resourceId, packageId, db, prefix, primaryKeys);
        var s := Loop(env, ctx, tables, LoopState(cache, log, [], None));
        if s.raised.Some? then ValidateRun(s.cache, s.log, s.visited, Raised(s.raised.value))
        else ValidateRun(ClearPrefix(s.cache, prefix), s.log, s.visited, Passed)
  }
}
